=== FILE: README.md ===
# ActionEngine in Dafny

ActionEngine runs a loop of *actions* over one shared, typed store of named
values.

- Each action is a function. Its signature declares **inputs**, the named and
  typed values it needs. An input can also list the names that become stale
  when it changes.
- Each action's return annotation declares **outputs**, the named and typed
  values it produces. Each output says whether a change to it *cascades*.
- On every turn, the engine offers a user-supplied selector the actions whose
  inputs the store satisfies. It invokes the chosen one, stores the outputs
  and cascades invalidations. It stops after running an action marked final.
- At registration, the engine also maintains a producer/consumer graph
  between actions. It can render this graph as a Mermaid diagram.

This project models the four core files of the repository as pure Dafny
functions and proves properties about them:

- `action_engine/param.py`: declarations, declaration sets, the `<=`
  compatibility relation and the stateful store;
- `action_engine/action.py`: extracting declarations from a signature,
  invocability, invocation and the diagnostic summary;
- `action_engine/engine.py`: registration with graph wiring, candidate
  filtering, `_update`, `_cascade` and the run loop;
- `action_engine/graph.py`: the insertion-ordered graph and its Mermaid text.

Files (one module each):

| file | module | contents |
|---|---|---|
| `wrappers.dfy` | `Wrappers` | `Option`, `Result` |
| `dict.dfy` | `Dict` | an insertion-ordered dictionary: the Python `dict` the sources use throughout |
| `pytypes.dfy` | `PyTypes` | classes as lineages, `issubclass` and `isinstance`, values, faults |
| `param.dfy` | `Params` | `Param` / `InputParam` / `OutputParam`, `ParamSet`, `StatefulParamSet` |
| `action.dfy` | `Actions` | `Action`, signature extraction, `invoke`, `get_info` |
| `graph.dfy` | `Graphs` | `Graph`, `add_edge`, `display_mermaid` |
| `engine.dfy` | `Engines` | `Engine`: registration, `_filter_actions`, `_update`, `_cascade`, `run` |
| `scenarios.dfy` | `Scenarios` | the situations of the repository's tests, stated over the model |

## Modelling choices

- **Classes.** A class is its lineage from `object` down to itself. So
  `issubclass(a, b)` holds when b's lineage is a prefix of a's, and
  `isinstance(v, t)` is `issubclass(type(v), t)`.
- **Values.** A value is `None`, a tuple, or an object of some class whose
  contents are abstracted to one integer.
- **Dictionaries.** A Python `dict` is a key sequence in insertion order plus
  a map. Re-assigning an existing key keeps its position, and `del` removes
  the key from the sequence. Declaration sets, the action registry and the
  graph's two dictionaries all use this one type.
- **Functions as data.** A function's signature is data: a list of
  (parameter name, hint) pairs and a return hint. The hint forms are:
  - a bare class;
  - `Annotated[T, Deps(..)]` or `Annotated[T, Tag(..)]`;
  - `tuple[...]`;
  - no annotation at all.
  Action bodies and the selector are function parameters (`Bodies`,
  `Selector`).
- **Identity.** Graph nodes are keyed by object identity, so an `Action`
  carries a `serial`: the registration count at the time it was created.
- **Registration.** Registering a function returns the new engine and the
  action, or the fault the decorator would raise:
  - `assert isinstance(metadata, ...)` becomes `WrongMetadata`;
  - a `TypeError` about the return shape becomes `BadReturnShape`;
  - the attribute error of the tuple branch becomes `MissingMetadata`.
- **Storing values.** `set_state` returns `Err(NotInstance(name))` where the
  source's `assert isinstance` fails.
- **Termination.** `_cascade` recurses through the declared `deps`. The model
  takes a ghost `rank` that strictly decreases along every dependency edge
  (`RankedBy`). The run loop takes a `fuel` bound and reports whether it ended
  on a final action or ran out.

Where the code does less, or other, than its own comments, names and
messages suggest, the model follows the code:

- A tuple result is zipped with the outputs (`zip` at
  action_engine/action.py:167), so the longer side is cut off. A length
  mismatch is not a fault.
- `_update` with `None` returns early (action_engine/engine.py:73). It does
  not remove the value.
- An input missing from the store is passed as `None`. `get_state` returns
  `None`, so the `KeyError` handler with the "Missing required parameter"
  message (action_engine/action.py:153-156) is never reached
  (`AbsentInputPassedAsNone`).
- The branch commented `# Handle multiple` (action_engine/action.py:93-103)
  reads `__metadata__` from the whole tuple annotation, not from each
  element. A tuple of tagged types is therefore rejected (see Findings).
- The positional arguments of `run` are zipped with *all* of the entry
  point's inputs, in order (action_engine/engine.py:41). The first input,
  normally `base`, is included, so the first positional value is bound to it.

## Model

| member | source | states |
|---|---|---|
| Dict.Dict.Put | action_engine/param.py:78-80 | assigning a key makes it map to the value, leaves every other key's lookup alone, keeps the old keys in their order and grows the key list by one exactly when the key was new |
| Dict.Dict.Remove | action_engine/param.py:82-85 | after `del`, the key is absent, every other lookup is unchanged and the key list is the old one with that key filtered out |
| Dict.RemoveIdempotent | action_engine/param.py:82-85 | removing a key twice is the same as removing it once |
| Dict.RemoveAllTwice | action_engine/engine.py:80-86 | removing one set of keys and then another equals removing their union, which lets the many single discards of a cascade be read as one |
| PyTypes.SubclassTransitive | action_engine/param.py:49-56 | `issubclass` is transitive over class lineages, which the `<=` relation relies on |
| PyTypes.InstanceOfOwnType | action_engine/action.py:170-178 | every value is an instance of its own runtime class, so retagging an output with `type(val)` always admits the value |
| Params.ContainsIffListed | action_engine/param.py:45-47 | `name in S` holds exactly for the names iteration lists, and then `get(name)` returns the declaration carrying that name |
| Params.Contains | action_engine/param.py:45-47 | for a well-formed set, `name in S` holds exactly when iteration lists the name |
| Params.At | action_engine/param.py:66-72 | positional access returns the i-th declaration in insertion order, which is also the one `get` returns for its name |
| Params.Add | action_engine/param.py:78-80 | `add` upserts by name: the name now maps to the new declaration, every other name is unchanged, and the size grows by at most one |
| Params.Discard | action_engine/param.py:82-85 | `discard` removes the name, keeps every other name, and is a no-op on an absent name |
| Params.DiscardIdempotent | action_engine/param.py:82-85 | discarding twice equals discarding once |
| Params.FromListContents | action_engine/param.py:40-43 | the set built from a list contains exactly the listed names, each mapped to one of the listed declarations |
| Params.FromListOrder | action_engine/param.py:40-43 | with distinct names, the set's iteration order is the list's order |
| Params.FromListKeepsLast | action_engine/param.py:40-43 | for a repeated name, the last declaration in the list wins |
| Params.FromListDeclares | action_engine/param.py:40-43 | the set built from a list declares exactly the listed names; with distinct names, in list order and each with its own declaration |
| Params.FromList | action_engine/param.py:40-43 | the set built from any list, repeated names included, is well formed: its iteration order lists each declared name once |
| Params.Le | action_engine/param.py:49-56 | `N <= E` holds iff every name of N is in E with a type that is a subclass of N's type |
| Params.MissingNameNotLe | action_engine/param.py:51-52 | a required name that is not available defeats `<=` |
| Params.WideningNotLe | action_engine/param.py:53-56 | an available type that is not a subclass of the required type defeats `<=` |
| Params.StrictSupersetNotLe | action_engine/param.py:51-52 | a set is never `<=` a strict subset of its names |
| Params.LeReflexive | action_engine/param.py:49-56 | every set is `<=` itself |
| Params.LeTransitive | action_engine/param.py:49-56 | `<=` is transitive: requirements met by E, whose own requirements are met by F, are met by F |
| Params.GetState | action_engine/param.py:107-108 | on a well-formed store, `get_state` is `None` exactly when the name is not declared |
| Params.DiscardState | action_engine/param.py:110-114 | the store's `discard` removes the declaration and the value together, changes nothing else, and keeps the store well-formed |
| Params.DiscardStateIdempotent | action_engine/param.py:110-114 | discarding a name from the store twice equals discarding it once |
| Params.DiscardAll | action_engine/param.py:110-114 | discarding a set of names removes each of them and keeps every other declaration and value |
| Params.DiscardNothing | action_engine/param.py:110-114 | discarding no names leaves the store as it was |
| Params.DiscardIsDiscardAll | action_engine/param.py:110-114 | one discard is the set-discard of a singleton |
| Params.DiscardAllTwice | action_engine/param.py:110-114 | two set-discards compose into the discard of the union |
| Params.SetState | action_engine/param.py:99-105 | `None` discards the name; a value that is not an instance of the declared type is refused with `NotInstance(name)`; otherwise the value becomes readable under the new declaration and nothing else changes; the store stays well-formed (every stored value is a non-`None` instance of its declaration) |
| Actions.ExtractInputs | action_engine/action.py:62-74 | every parameter becomes one input, in order, with its base type and declared deps (none when bare), and extraction fails exactly when some parameter carries a `Tag` instead of `Deps` |
| Actions.ExtractOutputs | action_engine/action.py:76-113 | a `None` return declares no outputs; a `Tag`-annotated return declares one output with the tag's name, the base type and the cascade flag; a `Deps`-annotated return fails the `TagMetaData` assertion; a missing or plain non-`None` annotation is a shape error; a tuple succeeds exactly when every element is tagged and then declares one output per element |
| Actions.OutputsOfTuple | action_engine/action.py:95-109 | a tuple annotation yields one output per element, each named and flagged by the element's own tag, and fails exactly when some element is not tagged |
| Actions.ExtractOutputsAsWritten | action_engine/action.py:95-105 | the tuple branch as written reads the metadata of the whole tuple annotation, so any non-empty tuple return fails, while every other shape, the empty tuple included, agrees with the corrected extraction |
| Actions.TupleReturnRejectedAsWritten | action_engine/action.py:96-105 | a tuple of correctly tagged elements is rejected as written but accepted, one output per element, by the corrected extraction |
| Actions.InputsOfSignature | action_engine/action.py:31-36 | the input set holds only input declarations and, for distinct parameter names, lists them in signature order, each with its declared type and deps |
| Actions.Build | action_engine/action.py:25-39 | constructing an action succeeds exactly when both extractions do and otherwise reports the input fault, or else the output fault; it keeps the name, finality and description, orders inputs as the signature does, and declares as outputs the set built from the extracted outputs |
| Actions.BuildOutputs | action_engine/action.py:25-39 | the built action declares exactly the names of the extracted outputs; with distinct names, in the return annotation's order and each with its own declaration |
| Actions.CanInvokeWith | action_engine/action.py:115-120 | an action can be invoked exactly when its inputs are `<=` the available declarations, i.e. each input name is available with a narrower type |
| Actions.GetInputParam | action_engine/action.py:122-123 | the lookup finds an input declaration exactly for the action's own input names, and what it returns is the action's own declaration of that name |
| Actions.Arguments | action_engine/action.py:153-156 | the call receives exactly one keyword argument per input, holding the store's current value or `None` |
| Actions.AbsentInputPassedAsNone | action_engine/action.py:153-156 | an input the store lacks is passed as `None` rather than raising |
| Actions.InvocableArgumentsWellTyped | action_engine/action.py:115-120 | when the action is invocable, every argument is present and an instance of its input's type |
| Actions.Zip | action_engine/action.py:166-173 | the pairing stops at the shorter side and pairs the i-th output with the i-th value, retagged with the value's runtime class |
| Actions.MapResult | action_engine/action.py:162-183 | no outputs gives no pairs; a tuple result is zipped positionally; any other result goes to the first output; every pair keeps its output's name and cascade flag and is typed by the value's runtime class |
| Actions.Invoke | action_engine/action.py:152-183 | invoking calls the body on the arguments read from the store; with outputs declared, a tuple result is zipped with them (the shorter side sets the length) and any other result becomes one pair for the first output; every pair keeps its output's name and cascade flag, in declaration order, and is retagged with its value's runtime class |
| Actions.Info | action_engine/action.py:137-150 | the summary has two parts, and each reads `None` exactly when its declaration set is empty |
| Actions.SummaryNoneIffEmpty | action_engine/action.py:137-150 | a summary reads `None` only for an empty set: every line of a non-empty one contains a colon |
| Actions.SummaryLineCount | action_engine/action.py:137-150 | a summary has one line per declaration, or one line when there are none |
| Graphs.Graph.AddNode | action_engine/graph.py:16-20 | adding a node gives it an empty adjacency list, even when it already had neighbours, and touches neither the edges nor any other node |
| Graphs.Graph.AddEdge | action_engine/graph.py:22-31 | adding an edge creates missing endpoints, appends the target to the source's adjacency, records the label under the pair (overwriting an older one), leaves all other entries alone and keeps every edge between known nodes |
| Graphs.Graph.GetEdges | action_engine/graph.py:33-37 | the labels of a node's outgoing edges follow its adjacency list one for one; an unknown node has none |
| Graphs.Graph.GetNodes | action_engine/graph.py:39-43 | the node list has no repeats and lists exactly the graph's nodes; its order is stated by `AddNodeNodes` and `AddEdgeNodes` |
| Graphs.Graph.GetNeighbors | action_engine/graph.py:45-49 | a node's neighbours exist exactly for a known node (an unknown one is the `KeyError`), and each neighbour is a node joined to it by a recorded edge; how `add_edge` extends them is stated by `AddEdgeNeighbors` |
| Graphs.AddNodeNodes | action_engine/graph.py:16-20 | after `add_node`, `get_nodes` is the old list with a new node appended, and unchanged for a known node |
| Graphs.AddEdgeNodes | action_engine/graph.py:22-31 | after `add_edge`, `get_nodes` is the old list followed by the source if it was new, then the target if it was new and distinct |
| Graphs.AddEdgeNeighbors | action_engine/graph.py:22-31 | after `add_edge(n1, n2)`, `get_neighbors(n1)` is n1's old neighbours followed by `n2`, and every other node except `n2` keeps its neighbours |
| Graphs.EmptyGraph | action_engine/graph.py:12-14 | a new graph is well-formed and has no nodes |
| Graphs.EndpointsAreNodes | action_engine/graph.py:22-31 | both endpoints of every recorded edge are nodes of the graph |
| Graphs.ReAddEdge | action_engine/graph.py:22-31 | adding the same pair twice keeps one edge with the newer label but lists the target twice in the adjacency |
| Graphs.AddEdgesPairs | action_engine/graph.py:22-31 | adding a sequence of edges records exactly the old pairs plus the added ones |
| Graphs.AddEdgesKeepsNodes | action_engine/graph.py:22-31 | adding edges never drops or reorders an existing node |
| Graphs.AddEdgesFrame | action_engine/graph.py:22-31 | adding a sequence of edges leaves the label of every pair outside the sequence unchanged |
| Graphs.AddEdgesLabel | action_engine/graph.py:22-31 | after adding a sequence of edges, a pair in it carries the label of its last occurrence |
| Graphs.LastEntryIsLast | action_engine/graph.py:22-31 | the occurrence a pair's label comes from is that pair, and no later entry of the sequence repeats it |
| Graphs.AddEdgesGrowsAdjacency | action_engine/graph.py:22-31 | adding edges keeps every known node and only appends to its adjacency list |
| Graphs.MermaidSegments | action_engine/graph.py:51-82 | the diagram is the header, then one block per node in insertion order, then one `source -- label --> target` line per edge in insertion order |
| Graphs.DisplayMermaid | action_engine/graph.py:51-82 | the Mermaid text opens with the `graph TD` header and is nothing more exactly when the graph has no nodes and no edges |
| Engines.NewEngine | action_engine/engine.py:17-26 | a new engine is well-formed, keeps the base-state type it was given, and starts with no actions, no state, an empty graph and a zero registration counter |
| Engines.RegisteredWellFormed | action_engine/engine.py:11-13 | every registered action has well-formed input and output sets |
| Engines.OutEdges | action_engine/engine.py:99-103 | the first wiring loop adds an edge from the new action to each registered action, labelled by each output of the new action that the other takes as an input |
| Engines.InEdges | action_engine/engine.py:105-109 | the second wiring loop adds an edge from each registered action to the new one, labelled by each of its outputs that the new action takes as an input |
| Engines.Wire | action_engine/engine.py:99-109 | wiring keeps the graph well-formed, adds exactly the producer/consumer pairs of the two loops, labels each of them with a name the producer outputs and the consumer takes in, leaves every other pair's label alone and only appends to adjacency lists |
| Engines.WiringEffect | action_engine/engine.py:99-109 | after both loops every wired pair carries a label its producer outputs and its consumer consumes, every other pair keeps its old label, and every node keeps its adjacency list as a prefix |
| Engines.WiredPairsJoin | action_engine/engine.py:99-109 | a pair is wired exactly when one end is the new action and the other, a registered action, consumes a name the first produces |
| Engines.Install | action_engine/engine.py:96-110 | installing an action registers it under its name (replacing any namesake), leaves the store and base type alone, adds exactly the new wired pairs to the graph with a label the producer outputs and the consumer takes in, leaves other labels alone and never shrinks an adjacency list |
| Engines.Register | action_engine/engine.py:88-112 | the decorator succeeds exactly when the function's signature can be extracted and reports the extraction fault otherwise; on success it returns the built action, registers it under its name (replacing a namesake, keeping the other entries and their order), leaves the store and base type alone, adds exactly the new producer/consumer pairs to the graph, each labelled by a name its producer outputs and its consumer takes in, and leaves every other label alone |
| Engines.FilterInvocable | action_engine/engine.py:64-69 | the filter keeps exactly the invocable actions, in their original order |
| Engines.Candidates | action_engine/engine.py:64-69 | the candidates are exactly the registered actions invocable with the current declarations, in registration order |
| Engines.CascadeDiscardsInvalidated | action_engine/engine.py:80-86 | cascading from a name removes exactly the names reachable from it through the declared deps, and nothing else |
| Engines.CascadeFrom | action_engine/engine.py:80-86 | a cascade keeps the store well formed; what it removes is stated by `CascadeDiscardsInvalidated` |
| Engines.CascadeOverDiscards | action_engine/engine.py:82-86 | the loop over registered actions removes exactly what each consumer's deps invalidate |
| Engines.CascadeDepsDiscards | action_engine/engine.py:84-86 | discarding each dep and cascading from it removes exactly each dep and what it invalidates in turn |
| Engines.InvalidatedRankBelow | action_engine/engine.py:80-86 | everything a cascade removes lies strictly lower in the dependency order, so a cascade never removes the name it starts from |
| Engines.InvalidatedIncludesDeps | action_engine/engine.py:83-86 | a cascade from a name removes each declared dep of it and everything that dep's own cascade removes |
| Engines.InvalidatedOnlyThroughDeps | action_engine/engine.py:83-86 | a cascade removes nothing except a declared dep of the name or something that dep's cascade removes |
| Engines.Update | action_engine/engine.py:71-78 | applying `None` leaves the store unchanged; applying a value that is not an instance of the output's type fails with that name; otherwise the store stays well-formed |
| Engines.UpdateEffect | action_engine/engine.py:71-78 | a successful update makes the value readable under a plain declaration of the output's name and type, removes everything the cascade invalidates when the output cascades, and changes nothing else |
| Engines.ApplyAll | action_engine/engine.py:52-53 | applying a list of outputs succeeds exactly when every non-`None` value is an instance of its output's type, keeps the store well-formed, and applying no outputs changes nothing |
| Engines.ApplyAllAppend | action_engine/engine.py:52-53 | applying two lists one after the other is applying their concatenation: the loop runs `_update` pair by pair, in order, and stops at the first failure |
| Engines.ApplyAllLastReadable | action_engine/engine.py:52-53 | after a successful application, the last pair's value, when not `None`, is stored under a plain declaration of its output's name and type |
| Engines.InvokedOutputsApply | action_engine/engine.py:58-60 | the outputs an invocation returns can always be applied, since each is typed by its own value |
| Engines.Advance | action_engine/engine.py:58-60 | one turn invokes the chosen action on the store and applies all of its outputs in order, keeping the store well-formed |
| Engines.Loop | action_engine/engine.py:55-62 | the loop takes at most `fuel` turns; it finished exactly when its last turn ran a final action; each turn's action is the selector's pick from the candidates of the store that turn saw; no turn before the last is final |
| Engines.FollowsAt | action_engine/engine.py:55-62 | at every turn of the loop, the store is well-formed, the action is the selector's pick for that store, and only the last action can be final |
| Engines.HonestSelectorRunsCandidates | action_engine/engine.py:55-58 | with a selector that picks among its candidates, each action the loop runs is registered and invocable, and receives a present, correctly typed value for every input |
| Engines.BindPositional | action_engine/engine.py:40-42 | the positional values are bound to the entry point's inputs in order, the shorter side deciding how many, and binding fails exactly when a non-`None` value is not an instance of its input's type; other names are untouched |
| Engines.BindKeywords | action_engine/engine.py:44-48 | each keyword must name an input of the entry point, and its value must be `None` or an instance of that input's type; binding succeeds exactly then and touches only the named inputs |
| Engines.SetStateBinds | action_engine/param.py:99-105 | `set_state` leaves the value under the name with a plain declaration of the given type, or, for `None`, neither |
| Engines.BindPositionalStores | action_engine/engine.py:40-42 | with distinct input names, each positional value the `zip` pairs is stored under its input's name and type, and `None` leaves that name undeclared |
| Engines.BindKeywordsStores | action_engine/engine.py:44-48 | each keyword value not replaced by a later keyword of the same name is stored under that input's name and declared type, and `None` leaves it undeclared |
| Engines.Start | action_engine/engine.py:35-53 | the base state is stored under a plain `base` declaration of the engine's base type, and a non-`None` base of another class fails with `base`; without an entry point that is the whole start; with one, the start succeeds exactly when the base, the positional and the keyword bindings all succeed, and the store is then the entry point's turn applied to the bound store |
| Engines.StartKeepsLastOutput | action_engine/engine.py:50-53 | with an entry point, the last value it returns, when not `None`, is in the store the loop starts from, under its output's name and type |
| Engines.Run | action_engine/engine.py:28-62 | a run succeeds exactly when its start does and fails with the start's fault otherwise; a successful run leaves a well-formed engine that differs from the old one only in its store, after at most `fuel` turns, finished exactly when its last turn ran a final action, and its turns are the loop's from the started store: each turn's action is the selector's pick among the candidates of the store that turn saw |
| Scenarios.SetThenGet | tests/test_param.py:8-16 | a stored 42 reads back as 42 |
| Scenarios.SetThenDiscard | tests/test_param.py:19-28 | a discarded value reads back as `None` |
| Scenarios.IntIsNotFloat | tests/test_param.py:31-39 | storing an `int` under a `float` declaration is refused |
| Scenarios.SmallerSetIsLe | tests/test_param.py:42-52 | `{a: int} <= {a: int, b: str}` holds, and the converse does not |
| Scenarios.DummyActionExtraction | tests/test_action.py:10-43 | the test's function yields the inputs `base` and `increment`, in order, and the one output `result` |
| Scenarios.DummyActionInvocation | tests/test_action.py:45-59 | with `base = 10` and `increment = 5`, the action is invocable and returns the single pair `result = 15` |
| Scenarios.CascadeRemovesDependent | tests/test_engine.py:65-97 | cascading from `trigger` removes `dependent` |
| Scenarios.CascadeFollowsChain | action_engine/engine.py:71-86 | a cascading update of `a`, where `b` depends on `a` and `c` on `b`, removes both `b` and `c` and keeps the new `a` |
| Scenarios.IncrementExtraction | tests/test_engine.py:47-51 | the decorated `increment` builds to an action with the one input `base` and the one non-cascading output `counter` |
| Scenarios.FinishExtraction | tests/test_engine.py:53-55 | the decorated `finish` builds to a final action with the inputs `base` and `counter`, in order, and no outputs |
| Scenarios.RegisterNew | action_engine/engine.py:96-97 | registering a name not yet registered appends it to the registry's order and stores the built action under it, leaving every other name alone |
| Scenarios.TestRegistration | tests/test_engine.py:36-55 | decorating `increment` and then `finish` on a fresh engine over `DummyState` registers exactly the two actions the run scenario uses, `increment` first |
| Scenarios.OnlyIncrementAtStart | tests/test_engine.py:39-62 | before `increment` has produced `counter`, `increment` is the only candidate |
| Scenarios.IncrementStep | tests/test_engine.py:49-52 | running `increment` stores `counter = c + 1` as an `int` and keeps the base state |
| Scenarios.FinishTurn | tests/test_engine.py:30-37 | once `counter` is stored, the selector picks `finish` and the loop stops after that turn |
| Scenarios.IncrementThenFinish | tests/test_engine.py:39-62 | the run takes exactly two turns, `increment` then `finish`, ends because `finish` is final, and leaves `counter = c + 1` |
| Scenarios.RunIncrementThenFinish | tests/test_engine.py:39-62 | `engine.run(state)` with the two registered actions succeeds, finishes after two turns and leaves `counter = c + 1` in the engine |

## Left out

- Union types (`int | str` declarations), and the `｜`-joined rendering of
  them in `Param.__str__`: a declaration's type is always a single class.
- `Engine.display`: the UTF-8 and URL-safe base64 encoding of the Mermaid text
  and the `mermaid.ink` URL. The Mermaid text itself is modelled
  (`Graphs.DisplayMermaid`, `Engines.Mermaid`).
- Coroutine bodies run through `asyncio.run`: a body is one pure function from
  its arguments to its result.
- `param_functions.py`, `types.py` and `utils.py` are not part of this model:
  `Tag` and `Deps` appear only as the metadata they attach.
- Reflection: `get_type_hints`, `__name__`, `__origin__` and `__metadata__`
  are read from a `Signature` value that stands in for the function.
- Side effects of action bodies, including the mutation of the base state
  object by reference: a body's effect on the engine is its return value.
- `__str__`/`__repr__`/`get_name` of actions, and `Graph.__str__`: names are
  plain strings in the model.
- Engines.CascadeFrom: requires a `rank` that decreases along every
  declared dependency. The source has no cycle check: when a cascading output
  reaches a dependency cycle, `_cascade` recurses until Python's recursion
  limit, which the model does not represent.
- Engines.ApplyAll: requires a `rank` over the whole registry, although the
  source recurses only for the outputs that cascade. A registry with a
  dependency cycle that no cascading output reaches runs in the source but
  is outside this precondition. `Engines.Update` and `Engines.UpdateEffect`
  ask for the rank only when the output cascades.
- Engines.Advance: requires the whole-registry `rank`, as `Engines.ApplyAll`.
- Engines.Start: requires the whole-registry `rank`, as `Engines.ApplyAll`.
  On a fault it returns only the fault. The source raises after it has
  already stored `base` and every argument bound before the failing one
  (engine.py:35-48), and those stay in the engine's store. The model does
  not return that partly bound store.
- Engines.BindPositional: on a fault returns only the fault, not the store
  holding the arguments bound before it (engine.py:40-42).
- Engines.BindKeywords: on a fault returns only the fault, not the store
  holding the keywords bound before it (engine.py:44-48).
- Engines.Run: requires the whole-registry `rank`, as `Engines.ApplyAll`.
  After a fault in `Engines.Start`, it returns only that fault, not the
  engine whose store already holds `base` and the earlier bindings, which
  the source keeps.
- Engines.Loop: requires the whole-registry `rank`, as `Engines.ApplyAll`,
  and runs for at most `fuel` turns. The source loops forever when
  no final action is ever chosen, and calls the selector even with an empty
  candidate list. The model passes the empty list to the selector too, but
  states progress only up to the fuel bound.
- Scenarios.DummyActionInvocation: states the pair's length, name and value,
  as the test checks, not the retagged declaration.
- Actions.MapResult: a value of a `tuple` subclass (a named tuple) is an
  object in the model and goes whole to the first output, whereas the
  source's `isinstance(result, tuple)` zips it with the outputs. Only plain
  tuples carry items in the model.
- Actions.Invoke: the same holds for the result of an invocation, as
  `Actions.MapResult`.
- PyTypes.IsSubclass: class lineages are single inheritance. Multiple
  inheritance and virtual subclasses registered with an abstract base class
  are not modelled, so `issubclass` is the prefix order on lineages.
- The test selector in `tests/test_engine.py` takes one argument, while the
  engine calls it with the base state and the candidates. The model uses the
  two-argument form the engine calls.

## Findings

| source | as written | input that shows it | evidently intended | confidence | as-written member | corrected member |
|---|---|---|---|---|---|---|
| action_engine/action.py:96-105 | in the tuple branch, each element's metadata is read from the whole tuple annotation (`return_type.__metadata__`), which a `tuple[...]` hint does not have | a return hint `tuple[Annotated[int, Tag("x", cascade=False)]]` | read each element's own metadata (`sub_return_type.__metadata__[0]`), giving one output per tagged element | not executed | Actions.ExtractOutputsAsWritten, Actions.TupleReturnRejectedAsWritten | Actions.ExtractOutputs |

=== FILE: action.dfy ===
/** Actions: declarations built from a signature, the `can_invoke_with` test
    and the mapping from a body's result to output pairs
    (action_engine/action.py). */
module Actions {
  import opened Wrappers
  import opened Dict
  import opened PyTypes
  import opened Params

  /** What `Annotated[...]` carries: `Deps([...])` on an input, `Tag(name,
      cascade=...)` on an output. */
  datatype Meta = DepsMeta(deps: seq<string>) | TagMeta(tag: string, cascade: bool)

  /** A type annotation: a bare class, or a class with one metadata item. */
  datatype Hint = Bare(ty: TypeTag) | Annotated(base: TypeTag, meta: Meta)

  /** A return annotation: absent (read as `Any`), one hint, or `tuple[...]`. */
  datatype ReturnHint = NoReturnHint | Returns(hint: Hint) | ReturnsTuple(elems: seq<Hint>)

  /** The explicit descriptor that replaces reflection on a function: its
      annotated parameters in order, and its return annotation. */
  datatype Signature = Signature(params: seq<(string, Hint)>, ret: ReturnHint)

  /** An `Action`. `serial` stands for the object's identity: the engine
      numbers actions in registration order. */
  datatype Action = Action(
    serial: nat,
    name: string,
    final: bool,
    description: string,
    inputs: ParamSet,
    outputs: ParamSet)

  ghost predicate WellFormed(a: Action) {
    && IsParamSet(a.inputs)
    && IsParamSet(a.outputs)
    && (forall n :: n in a.inputs.m ==> a.inputs.m[n].Input?)
    && (forall n :: n in a.outputs.m ==> a.outputs.m[n].Output?)
  }

  function HintType(h: Hint): TypeTag {
    if h.Bare? then h.ty else h.base
  }

  /** The invalidation list an input annotation declares; none when bare. */
  function DeclaredDeps(h: Hint): seq<string> {
    if h.Annotated? && h.meta.DepsMeta? then h.meta.deps else []
  }

  predicate IsTagged(h: Hint) {
    h.Annotated? && h.meta.TagMeta?
  }

  /** One parameter of the signature as an input declaration. */
  function InputOf(name: string, h: Hint): Result<Param, Fault> {
    if IsTagged(h) then Err(WrongMetadata(name))
    else Ok(Input(name, HintType(h), DeclaredDeps(h)))
  }

  /** `_extract_input_params`: every parameter becomes one input declaration;
      a parameter annotated with a `Tag` instead of `Deps` is rejected. */
  function ExtractInputs(params: seq<(string, Hint)>): (r: Result<seq<Param>, Fault>)
    ensures r.Err? <==> exists i :: 0 <= i < |params| && IsTagged(params[i].1)
    ensures r.Ok? ==> |r.value| == |params| && forall i :: 0 <= i < |params| ==>
              r.value[i] == Input(params[i].0, HintType(params[i].1), DeclaredDeps(params[i].1))
  {
    if params == [] then Ok([])
    else
      match InputOf(params[0].0, params[0].1)
      case Err(f) => Err(f)
      case Ok(p) =>
        match ExtractInputs(params[1..])
        case Err(f) => Err(f)
        case Ok(ps) => Ok([p] + ps)
  }

  /** One element of a return annotation as an output declaration. */
  function OutputOf(h: Hint): Result<Param, Fault> {
    match h
    case Annotated(base, TagMeta(tag, cascade)) => Ok(Output(tag, base, cascade))
    case Annotated(_, DepsMeta(_)) => Err(WrongMetadata("return"))
    case Bare(_) => Err(BadReturnShape)
  }

  /** Each element of a tuple annotation in turn, reading the element's own
      metadata. */
  function OutputsOfTuple(elems: seq<Hint>): (r: Result<seq<Param>, Fault>)
    ensures r.Ok? <==> forall i :: 0 <= i < |elems| ==> IsTagged(elems[i])
    ensures r.Ok? ==> |r.value| == |elems| && forall i :: 0 <= i < |elems| ==>
              r.value[i] == Output(elems[i].meta.tag, elems[i].base, elems[i].meta.cascade)
  {
    if elems == [] then Ok([])
    else
      match OutputOf(elems[0])
      case Err(f) => Err(f)
      case Ok(p) =>
        match OutputsOfTuple(elems[1..])
        case Err(f) => Err(f)
        case Ok(ps) => Ok([p] + ps)
  }

  /** `_extract_output_params` with tuple elements read per element: `None`
      gives no outputs, one tagged type one output, a tuple of tagged types
      one output each, and any other shape is a `TypeError`. */
  function ExtractOutputs(ret: ReturnHint): (r: Result<seq<Param>, Fault>)
    ensures ret == Returns(Bare(NoneType)) ==> r == Ok([])
    ensures ret.Returns? && IsTagged(ret.hint) ==>
              r == Ok([Output(ret.hint.meta.tag, ret.hint.base, ret.hint.meta.cascade)])
    ensures ret.NoReturnHint? || (ret.Returns? && ret.hint.Bare? && ret.hint.ty != NoneType) ==>
              r == Err(BadReturnShape)
    ensures ret.Returns? && ret.hint.Annotated? && ret.hint.meta.DepsMeta? ==> r == Err(WrongMetadata("return"))
    ensures ret.ReturnsTuple? ==> (r.Ok? <==> forall i :: 0 <= i < |ret.elems| ==> IsTagged(ret.elems[i]))
    ensures ret.ReturnsTuple? && r.Ok? ==> |r.value| == |ret.elems|
    ensures r.Ok? ==> forall i :: 0 <= i < |r.value| ==> r.value[i].Output?
  {
    match ret
    case NoReturnHint => Err(BadReturnShape)
    case Returns(Annotated(base, TagMeta(tag, cascade))) => Ok([Output(tag, base, cascade)])
    case Returns(Annotated(_, DepsMeta(_))) => Err(WrongMetadata("return"))
    case Returns(Bare(t)) => if t == NoneType then Ok([]) else Err(BadReturnShape)
    case ReturnsTuple(elems) => OutputsOfTuple(elems)
  }

  /** `_extract_output_params` as written: for a tuple element that is
      annotated it reads `__metadata__` from the whole `tuple[...]`
      annotation, which has none. */
  function ExtractOutputsAsWritten(ret: ReturnHint): (r: Result<seq<Param>, Fault>)
    ensures !(ret.ReturnsTuple? && ret.elems != []) ==> r == ExtractOutputs(ret)
    ensures ret.ReturnsTuple? && ret.elems != [] ==> r.Err?
  {
    match ret
    case ReturnsTuple(elems) =>
      if elems == [] then Ok([])
      else if elems[0].Annotated? then Err(MissingMetadata)
      else Err(BadReturnShape)
    case _ => ExtractOutputs(ret)
  }

  /** A tuple of tagged types, for which the branch commented `# Handle
      multiple` is meant to yield one output per element, is rejected by
      the code as written. */
  lemma TupleReturnRejectedAsWritten(elems: seq<Hint>)
    requires elems != []
    requires forall i :: 0 <= i < |elems| ==> IsTagged(elems[i])
    ensures ExtractOutputsAsWritten(ReturnsTuple(elems)) == Err(MissingMetadata)
    ensures ExtractOutputs(ReturnsTuple(elems)).Ok?
    ensures |ExtractOutputs(ReturnsTuple(elems)).value| == |elems|
  {
  }

  function ParamNames(sig: Signature): (ns: seq<string>)
    ensures |ns| == |sig.params| && forall i :: 0 <= i < |ns| ==> ns[i] == sig.params[i].0
  {
    seq(|sig.params|, i requires 0 <= i < |sig.params| => sig.params[i].0)
  }

  /** The input set built from a signature holds only input declarations,
      and with distinct parameter names declares each parameter once, in
      signature order. */
  lemma InputsOfSignature(sig: Signature, ins: seq<Param>)
    requires ExtractInputs(sig.params) == Ok(ins)
    ensures forall n :: Contains(FromList(ins), n) ==> FromList(ins).m[n].Input?
    ensures NoDup(ParamNames(sig)) ==>
              && FromList(ins).keys == ParamNames(sig)
              && forall i :: 0 <= i < |sig.params| ==>
                   FromList(ins).Get(sig.params[i].0)
                     == Some(Input(sig.params[i].0, HintType(sig.params[i].1), DeclaredDeps(sig.params[i].1)))
  {
    InputsAreInputs(ins);
    assert forall i :: 0 <= i < |ins| ==> Names(ins)[i] == ParamNames(sig)[i];
    assert Names(ins) == ParamNames(sig);
    if NoDup(ParamNames(sig)) {
      FromListOrder(ins);
      forall i | 0 <= i < |sig.params|
        ensures FromList(ins).Get(sig.params[i].0) == Some(ins[i])
      {
        FromListKeepsLast(ins, i);
      }
    }
  }

  lemma InputsAreInputs(ins: seq<Param>)
    requires forall i :: 0 <= i < |ins| ==> ins[i].Input?
    ensures forall n :: Contains(FromList(ins), n) ==> FromList(ins).m[n].Input?
  {
    FromListContents(ins);
  }

  lemma OutputsAreOutputs(outs: seq<Param>)
    requires forall i :: 0 <= i < |outs| ==> outs[i].Output?
    ensures forall n :: Contains(FromList(outs), n) ==> FromList(outs).m[n].Output?
  {
    FromListContents(outs);
  }

  /** `Action.__init__`: inputs are extracted first, then outputs; either
      extraction's fault aborts the construction. */
  function Build(serial: nat, name: string, final: bool, description: string, sig: Signature)
    : (r: Result<Action, Fault>)
    ensures r.Ok? <==> ExtractInputs(sig.params).Ok? && ExtractOutputs(sig.ret).Ok?
    ensures r.Err? && ExtractInputs(sig.params).Err? ==> r.error == ExtractInputs(sig.params).error
    ensures r.Err? && ExtractInputs(sig.params).Ok? ==> r.error == ExtractOutputs(sig.ret).error
    ensures r.Ok? ==> r.value.outputs == FromList(ExtractOutputs(sig.ret).value)
    ensures r.Ok? ==> WellFormed(r.value)
    ensures r.Ok? ==> (r.value.serial == serial && r.value.name == name
                       && r.value.final == final && r.value.description == description)
    ensures r.Ok? && NoDup(ParamNames(sig)) ==>
              && r.value.inputs.keys == ParamNames(sig)
              && forall i :: 0 <= i < |sig.params| ==>
                   r.value.inputs.Get(sig.params[i].0)
                     == Some(Input(sig.params[i].0, HintType(sig.params[i].1), DeclaredDeps(sig.params[i].1)))
  {
    match ExtractInputs(sig.params)
    case Err(f) => Err(f)
    case Ok(ins) =>
      match ExtractOutputs(sig.ret)
      case Err(f) => Err(f)
      case Ok(outs) =>
        InputsOfSignature(sig, ins);
        OutputsAreOutputs(outs);
        var a := Action(serial, name, final, description, FromList(ins), FromList(outs));
        Ok(a)
  }

  /** The built action declares exactly the extracted outputs; with
      distinct names they keep the return annotation's order, each under its
      own name. */
  lemma BuildOutputs(serial: nat, name: string, final: bool, description: string, sig: Signature,
                     a: Action, outs: seq<Param>)
    requires Build(serial, name, final, description, sig) == Ok(a)
    requires ExtractOutputs(sig.ret) == Ok(outs)
    ensures forall n :: Contains(a.outputs, n) <==> n in Names(outs)
    ensures NoDup(Names(outs)) ==> a.outputs.keys == Names(outs)
    ensures NoDup(Names(outs)) ==> forall i :: 0 <= i < |outs| ==> a.outputs.Get(outs[i].name) == Some(outs[i])
  {
    assert a.outputs == FromList(outs);
    FromListDeclares(outs);
  }

  /** `can_invoke_with`: the action's inputs are `<=` the available set. */
  function CanInvokeWith(a: Action, available: ParamSet): (b: bool)
    requires WellFormed(a)
    ensures b <==> Le(a.inputs, available)
    ensures b <==> Satisfies(a.inputs, available)
  {
    Le(a.inputs, available)
  }

  function GetInputParam(a: Action, name: string): (p: Option<Param>)
    requires WellFormed(a)
    ensures p.Some? <==> Contains(a.inputs, name)
    ensures p.Some? ==> p.value.Input? && p.value.name == name
    ensures p.Some? ==> p.value in a.inputs.m.Values
  {
    a.inputs.Get(name)
  }

  /** The keyword arguments `invoke` passes: each input name with its value
      read by `get_state`, which yields `None` for an absent name. */
  function Arguments(a: Action, st: Store): (args: map<string, PyValue>)
    ensures args.Keys == a.inputs.m.Keys
    ensures forall n :: n in args ==> args[n] == GetState(st, n)
  {
    map n | n in a.inputs.m :: GetState(st, n)
  }

  /** An absent input is passed as `None`: no "missing parameter" fault. */
  lemma AbsentInputPassedAsNone(a: Action, st: Store, name: string)
    requires st.Valid()
    requires Contains(a.inputs, name) && !Contains(st.decls, name)
    ensures Arguments(a, st)[name] == PyNone
  {
  }

  /** When `can_invoke_with` holds, every argument is present and is an
      instance of the type its input declares. */
  lemma InvocableArgumentsWellTyped(a: Action, st: Store)
    requires WellFormed(a) && st.Valid()
    requires CanInvokeWith(a, st.decls)
    ensures forall n :: n in Arguments(a, st) ==>
              Arguments(a, st)[n] != PyNone && IsInstance(Arguments(a, st)[n], a.inputs.m[n].ty)
  {
    var args := Arguments(a, st);
    forall n | n in args
      ensures args[n] != PyNone && IsInstance(args[n], a.inputs.m[n].ty)
    {
      SubclassTransitive(TypeOf(args[n]), st.decls.m[n].ty, a.inputs.m[n].ty);
    }
  }

  /** The declaration paired with a returned value: the declared name and
      cascade flag, and the value's runtime type. */
  function Retag(p: Param, v: PyValue): Param {
    Output(p.name, TypeOf(v), Cascades(p))
  }

  /** `zip(outputs, values)`, stopping at the shorter of the two. */
  function Zip(outs: seq<Param>, vs: seq<PyValue>): (r: seq<(Param, PyValue)>)
    ensures |r| == if |outs| < |vs| then |outs| else |vs|
    ensures forall i :: 0 <= i < |r| ==> r[i] == (Retag(outs[i], vs[i]), vs[i])
  {
    if outs == [] || vs == [] then []
    else [(Retag(outs[0], vs[0]), vs[0])] + Zip(outs[1..], vs[1..])
  }

  /** The second half of `invoke`: no outputs give no pairs whatever the body
      returned; a tuple is zipped with the outputs; any other value pairs
      with the first output. */
  function MapResult(outs: seq<Param>, result: PyValue): (r: seq<(Param, PyValue)>)
    ensures outs == [] ==> r == []
    ensures outs != [] && result.PyTuple? ==>
              |r| == (if |outs| < |result.items| then |outs| else |result.items|)
              && forall i :: 0 <= i < |r| ==> r[i].1 == result.items[i]
    ensures outs != [] && !result.PyTuple? ==> r == [(Retag(outs[0], result), result)]
    ensures |r| <= |outs|
    ensures forall i :: 0 <= i < |r| ==>
              && r[i].0.Output?
              && r[i].0.name == outs[i].name
              && r[i].0.cascade == Cascades(outs[i])
              && r[i].0.ty == TypeOf(r[i].1)
  {
    if outs == [] then []
    else if result.PyTuple? then Zip(outs, result.items)
    else [(Retag(outs[0], result), result)]
  }

  /** Every pair `invoke` returns holds a value that is an instance of the
      type its declaration carries. */
  lemma MapResultWellTyped(outs: seq<Param>, result: PyValue)
    ensures forall i :: 0 <= i < |MapResult(outs, result)| ==>
              IsInstance(MapResult(outs, result)[i].1, MapResult(outs, result)[i].0.ty)
  {
  }

  /** `invoke`: the body is called with the arguments read from the store
      and its result is mapped onto the declared outputs. */
  function Invoke(a: Action, st: Store, body: map<string, PyValue> -> PyValue): (r: seq<(Param, PyValue)>)
    ensures a.outputs.Values() == [] ==> r == []
    ensures var res := body(Arguments(a, st));
            a.outputs.Values() != [] && res.PyTuple? ==>
              && |r| == (if |a.outputs.Values()| < |res.items| then |a.outputs.Values()| else |res.items|)
              && forall i :: 0 <= i < |r| ==> r[i].1 == res.items[i]
    ensures var res := body(Arguments(a, st));
            a.outputs.Values() != [] && !res.PyTuple? ==> r == [(Retag(a.outputs.Values()[0], res), res)]
    ensures |r| <= |a.outputs.Values()|
    ensures forall i :: 0 <= i < |r| ==>
              && r[i].0.Output?
              && r[i].0.name == a.outputs.Values()[i].name
              && r[i].0.cascade == Cascades(a.outputs.Values()[i])
              && r[i].0.ty == TypeOf(r[i].1)
  {
    MapResult(a.outputs.Values(), body(Arguments(a, st)))
  }

  /** One diagnostic line for a declaration. */
  function Render(p: Param): string {
    p.name + ": " + ClassName(p.ty)
  }

  function Lines(ps: seq<Param>): string {
    if ps == [] then "" else Render(ps[0]) + "\n" + Lines(ps[1..])
  }

  /** The summary of one declaration set: `"None\n"` when it is empty,
      otherwise one line per declaration. */
  function Summary(ps: seq<Param>): string {
    if ps == [] then "None\n" else Lines(ps)
  }

  /** `get_info`: the input summary and the output summary. */
  function Info(a: Action): (r: seq<string>)
    ensures |r| == 2
    ensures r[0] == "None\n" <==> a.inputs.Values() == []
    ensures r[1] == "None\n" <==> a.outputs.Values() == []
  {
    SummaryNoneIffEmpty(a.inputs.Values());
    SummaryNoneIffEmpty(a.outputs.Values());
    [Summary(a.inputs.Values()), Summary(a.outputs.Values())]
  }

  lemma {:induction false} ColonInLines(ps: seq<Param>)
    requires ps != []
    ensures ':' in Lines(ps)
  {
    var line := Render(ps[0]);
    assert line[|ps[0].name|] == ':';
    assert Lines(ps) == line + ("\n" + Lines(ps[1..]));
  }

  lemma SummaryNoneIffEmpty(ps: seq<Param>)
    ensures Summary(ps) == "None\n" <==> ps == []
  {
    if ps != [] {
      ColonInLines(ps);
      assert ':' !in "None\n";
    }
  }

  function CountChar(s: string, c: char): nat {
    if s == [] then 0 else (if s[0] == c then 1 else 0) + CountChar(s[1..], c)
  }

  lemma {:induction false} CountCharAppend(s: string, t: string, c: char)
    ensures CountChar(s + t, c) == CountChar(s, c) + CountChar(t, c)
  {
    if s == [] {
      assert s + t == t;
    } else {
      assert (s + t)[1..] == s[1..] + t;
      CountCharAppend(s[1..], t, c);
    }
  }

  /** When no name or class name contains a line break, a summary has one
      line per declaration, or the single line `None`. */
  lemma {:induction false} SummaryLineCount(ps: seq<Param>)
    requires forall i :: 0 <= i < |ps| ==> CountChar(Render(ps[i]), '\n') == 0
    ensures CountChar(Summary(ps), '\n') == if ps == [] then 1 else |ps|
  {
    if ps == [] {
      assert CountChar("None\n", '\n') == 1 by {
        assert "None\n"[1..] == "one\n";
        assert "one\n"[1..] == "ne\n";
        assert "ne\n"[1..] == "e\n";
        assert "e\n"[1..] == "\n";
      }
    } else {
      LinesCount(ps);
    }
  }

  lemma {:induction false} LinesCount(ps: seq<Param>)
    requires forall i :: 0 <= i < |ps| ==> CountChar(Render(ps[i]), '\n') == 0
    ensures CountChar(Lines(ps), '\n') == |ps|
  {
    if ps != [] {
      LinesCount(ps[1..]);
      CountCharAppend(Render(ps[0]) + "\n", Lines(ps[1..]), '\n');
      CountCharAppend(Render(ps[0]), "\n", '\n');
      assert ("\n")[1..] == "";
    }
  }
}

=== FILE: dict.dfy ===
/** Python's `dict`: a finite map that remembers the order in which its keys
    were first inserted. Assigning to an existing key keeps its position;
    deleting a key removes it from the order. */
module Dict {
  import opened Wrappers

  predicate NoDup<T(==)>(s: seq<T>) {
    forall i, j :: 0 <= i < j < |s| ==> s[i] != s[j]
  }

  /** The elements of `s` that are not in `drop`, in their original order. */
  function Without<K(!new)>(s: seq<K>, drop: set<K>): (r: seq<K>)
    ensures forall k :: k in r <==> k in s && k !in drop
    ensures |r| <= |s|
    ensures NoDup(s) ==> NoDup(r)
  {
    if s == [] then []
    else
      var rest := Without(s[1..], drop);
      assert forall k :: k in s[1..] ==> k in s;
      if s[0] in drop then rest
      else
        assert NoDup(s) ==> s[0] !in s[1..];
        [s[0]] + rest
  }

  /** Dropping `a` and then `b` is dropping `a + b`. */
  lemma {:induction false} WithoutTwice<K(!new)>(s: seq<K>, a: set<K>, b: set<K>)
    ensures Without(Without(s, a), b) == Without(s, a + b)
  {
    if s != [] {
      WithoutTwice(s[1..], a, b);
    }
  }

  /** Dropping keys that do not occur changes nothing. */
  lemma {:induction false} WithoutAbsent<K(!new)>(s: seq<K>, drop: set<K>)
    requires forall k :: k in drop ==> k !in s
    ensures Without(s, drop) == s
  {
    if s != [] {
      assert s[0] !in drop;
      WithoutAbsent(s[1..], drop);
      assert [s[0]] + s[1..] == s;
    }
  }

  /** The values stored under `ks`, in the order of `ks`; keys missing from
      `m` contribute nothing. */
  function ValuesOf<K(!new), V>(ks: seq<K>, m: map<K, V>): (vs: seq<V>)
    ensures |vs| <= |ks|
    ensures (forall k :: k in ks ==> k in m) ==>
              |vs| == |ks| && forall i :: 0 <= i < |ks| ==> vs[i] == m[ks[i]]
  {
    if ks == [] then []
    else
      var rest := ValuesOf(ks[1..], m);
      assert forall k :: k in ks[1..] ==> k in ks;
      (if ks[0] in m then [m[ks[0]]] else []) + rest
  }

  datatype Dict<K(!new), V> = Dict(keys: seq<K>, m: map<K, V>) {

    /** The insertion order lists every key of the map exactly once. */
    ghost predicate Valid() {
      && NoDup(keys)
      && (forall k :: k in keys <==> k in m)
    }

    function Size(): nat {
      |keys|
    }

    /** `d.get(k)`. */
    function Get(k: K): Option<V> {
      if k in m then Some(m[k]) else None
    }

    /** The values in insertion order (`d.values()`). */
    function Values(): (vs: seq<V>)
      ensures Valid() ==> |vs| == |keys| && forall i :: 0 <= i < |keys| ==> vs[i] == m[keys[i]]
    {
      ValuesOf(keys, m)
    }

    /** `d[k] = v`: an existing key keeps its place, a new key goes last. */
    function Put(k: K, v: V): (d: Dict<K, V>)
      requires Valid()
      ensures d.Valid()
      ensures d.Get(k) == Some(v)
      ensures forall j :: j != k ==> d.Get(j) == Get(j)
      ensures d.m.Keys == m.Keys + {k}
      ensures keys <= d.keys
      ensures |d.keys| == |keys| + (if k in m then 0 else 1)
    {
      if k in m then Dict(keys, m[k := v])
      else
        assert forall j :: j in keys + [k] <==> j in keys || j == k;
        Dict(keys + [k], m[k := v])
    }

    /** `if k in d: del d[k]`. */
    function Remove(k: K): (d: Dict<K, V>)
      requires Valid()
      ensures d.Valid()
      ensures d.Get(k) == None
      ensures forall j :: j != k ==> d.Get(j) == Get(j)
      ensures d.keys == Without(keys, {k})
    {
      if k in m then Dict(Without(keys, {k}), m - {k})
      else
        WithoutAbsent(keys, {k});
        this
    }

    /** Deletes every key of `drop` that is present. */
    function RemoveAll(drop: set<K>): (d: Dict<K, V>)
      requires Valid()
      ensures d.Valid()
      ensures forall j :: j in drop ==> d.Get(j) == None
      ensures forall j :: j !in drop ==> d.Get(j) == Get(j)
      ensures d.keys == Without(keys, drop)
    {
      Dict(Without(keys, drop), m - drop)
    }
  }

  function Empty<K(!new), V>(): (d: Dict<K, V>)
    ensures d.Valid() && d.Size() == 0
  {
    Dict([], map[])
  }

  /** Removing no keys changes nothing. */
  lemma RemoveAllNothing<K(!new), V>(d: Dict<K, V>)
    requires d.Valid()
    ensures d.RemoveAll({}) == d
  {
    WithoutAbsent(d.keys, {});
    assert d.m - {} == d.m;
  }

  /** Removing a key is removing the one-element set of it. */
  lemma RemoveIsRemoveAll<K(!new), V>(d: Dict<K, V>, k: K)
    requires d.Valid()
    ensures d.Remove(k) == d.RemoveAll({k})
  {
    if k !in d.m {
      WithoutAbsent(d.keys, {k});
      assert d.m - {k} == d.m;
    }
  }

  /** Two removals in a row are one removal of the union. */
  lemma RemoveAllTwice<K(!new), V>(d: Dict<K, V>, a: set<K>, b: set<K>)
    requires d.Valid()
    ensures d.RemoveAll(a).RemoveAll(b) == d.RemoveAll(a + b)
  {
    WithoutTwice(d.keys, a, b);
    assert d.m - a - b == d.m - (a + b);
  }

  /** Removal is idempotent. */
  lemma RemoveIdempotent<K(!new), V>(d: Dict<K, V>, k: K)
    requires d.Valid()
    ensures d.Remove(k).Remove(k) == d.Remove(k)
  {
  }

}

=== FILE: engine.dfy ===
/** The engine: the registry of actions, the dependency graph built at
    registration, candidate filtering, applying outputs with cascading
    invalidation, and the run loop (action_engine/engine.py). */
module Engines {
  import opened Wrappers
  import opened Dict
  import opened PyTypes
  import opened Params
  import opened Actions
  import opened Graphs

  /** Actions by name, in registration order. */
  type Registry = Dict<string, Action>

  ghost predicate RegistryValid(reg: Registry) {
    && reg.Valid()
    && forall n :: n in reg.m ==> reg.m[n].name == n && WellFormed(reg.m[n])
  }

  datatype Engine = Engine(
    registry: Registry,
    store: Store,
    baseType: TypeTag,
    dag: Graph<Action, string>,
    registered: nat)
  {
    ghost predicate Valid() {
      RegistryValid(registry) && store.Valid() && dag.Valid()
    }
  }

  function NewEngine(baseType: TypeTag): (e: Engine)
    ensures e.Valid()
    ensures e.registry.Size() == 0 && e.store.decls.Size() == 0 && e.dag.GetNodes() == []
    ensures e.baseType == baseType && e.registered == 0
  {
    Engine(Empty(), EmptyStore(), baseType, EmptyGraph(), 0)
  }

  lemma RegisteredWellFormed(reg: Registry)
    requires RegistryValid(reg)
    ensures forall a :: a in reg.Values() ==> WellFormed(a)
  {
    forall a | a in reg.Values()
      ensures WellFormed(a)
    {
      var i :| 0 <= i < |reg.Values()| && reg.Values()[i] == a;
      assert a == reg.m[reg.keys[i]];
    }
  }

  // ---------------------------------------------------------------------
  // Registration and the dependency graph
  // ---------------------------------------------------------------------

  type Edge = (Action, Action, string)

  function OutputNames(a: Action): seq<string> {
    Names(a.outputs.Values())
  }

  /** The edges from `src` to `dst` labelled by each of `names` that `dst`
      takes as an input, in the order of `names`. */
  function EdgesBetween(src: Action, dst: Action, names: seq<string>): (es: seq<Edge>)
    ensures forall t :: t in es <==> t.0 == src && t.1 == dst && t.2 in names && t.2 in dst.inputs.m
  {
    if names == [] then []
    else (if names[0] in dst.inputs.m then [(src, dst, names[0])] else []) + EdgesBetween(src, dst, names[1..])
  }

  /** The first registration loop: for every action, an edge from the new
      action for each of its outputs that action consumes. */
  function OutEdges(a: Action, acts: seq<Action>): (es: seq<Edge>)
    ensures forall t :: t in es <==>
              t.0 == a && t.1 in acts && t.2 in OutputNames(a) && t.2 in t.1.inputs.m
  {
    if acts == [] then []
    else EdgesBetween(a, acts[0], OutputNames(a)) + OutEdges(a, acts[1..])
  }

  /** The second registration loop: for every action, an edge into the new
      action for each of that action's outputs the new one consumes. */
  function InEdges(a: Action, acts: seq<Action>): (es: seq<Edge>)
    ensures forall t :: t in es <==>
              t.1 == a && t.0 in acts && t.2 in OutputNames(t.0) && t.2 in a.inputs.m
  {
    if acts == [] then []
    else EdgesBetween(acts[0], a, OutputNames(acts[0])) + InEdges(a, acts[1..])
  }

  /** Storing a well-formed action under its own name keeps the registry valid. */
  lemma RegistryPut(reg: Registry, a: Action)
    requires RegistryValid(reg) && WellFormed(a)
    ensures RegistryValid(reg.Put(a.name, a))
  {
  }

  /** The pairs the two wiring loops add to the graph. */
  ghost function NewPairs(reg: Registry, a: Action): set<(Action, Action)>
    requires reg.Valid()
  {
    WiredPairs(a, reg.Put(a.name, a).Values())
  }

  ghost function WiredPairs(a: Action, acts: seq<Action>): set<(Action, Action)> {
    PairSet(OutEdges(a, acts)) + PairSet(InEdges(a, acts))
  }

  /** The label `l` of the pair `p` names an output of `p.0` that `p.1`
      takes as an input. */
  ghost predicate Feeds(p: (Action, Action), l: string) {
    l in OutputNames(p.0) && l in p.1.inputs.m
  }

  /** What the two wiring loops do to the graph's labels and adjacency. */
  lemma WiringEffect(dag: Graph<Action, string>, a: Action, acts: seq<Action>)
    requires dag.Valid()
    ensures var g := AddEdges(AddEdges(dag, OutEdges(a, acts)), InEdges(a, acts));
            && (forall p :: p in WiredPairs(a, acts) ==> g.edges.Get(p).Some? && Feeds(p, g.edges.Get(p).value))
            && (forall p :: p !in WiredPairs(a, acts) ==> g.edges.Get(p) == dag.edges.Get(p))
            && (forall n :: n in dag.nodes.m ==> n in g.nodes.m && dag.nodes.m[n] <= g.nodes.m[n])
  {
    var outs, ins := OutEdges(a, acts), InEdges(a, acts);
    var g1 := AddEdges(dag, outs);
    var g := AddEdges(g1, ins);
    forall p | p in WiredPairs(a, acts)
      ensures g.edges.Get(p).Some? && Feeds(p, g.edges.Get(p).value)
    {
      if p in PairSet(ins) {
        AddEdgesLabel(g1, ins, p);
        LastEntryIsLast(ins, p);
        assert ins[LastEntry(ins, p)] in ins;
      } else {
        AddEdgesFrame(g1, ins, p);
        AddEdgesLabel(dag, outs, p);
        LastEntryIsLast(outs, p);
        assert outs[LastEntry(outs, p)] in outs;
      }
    }
    forall p | p !in WiredPairs(a, acts)
      ensures g.edges.Get(p) == dag.edges.Get(p)
    {
      AddEdgesFrame(dag, outs, p);
      AddEdgesFrame(g1, ins, p);
    }
    forall n | n in dag.nodes.m
      ensures n in g.nodes.m && dag.nodes.m[n] <= g.nodes.m[n]
    {
      AddEdgesGrowsAdjacency(dag, outs, n);
      AddEdgesGrowsAdjacency(g1, ins, n);
    }
  }

  /** The two wiring loops of the decorator over the registered actions
      `acts`: every pair they join is labelled by a name its source outputs
      and its target consumes (the last such name the loops reach), every
      other pair keeps its label, and adjacency lists only grow. */
  function Wire(dag: Graph<Action, string>, a: Action, acts: seq<Action>): (g: Graph<Action, string>)
    requires dag.Valid()
    ensures g.Valid()
    ensures g.edges.m.Keys == dag.edges.m.Keys + WiredPairs(a, acts)
    ensures forall p :: p in WiredPairs(a, acts) ==> g.edges.Get(p).Some? && Feeds(p, g.edges.Get(p).value)
    ensures forall p :: p !in WiredPairs(a, acts) ==> g.edges.Get(p) == dag.edges.Get(p)
    ensures forall n :: n in dag.nodes.m ==> n in g.nodes.m && dag.nodes.m[n] <= g.nodes.m[n]
  {
    var g1 := AddEdges(dag, OutEdges(a, acts));
    AddEdgesPairs(dag, OutEdges(a, acts));
    AddEdgesPairs(g1, InEdges(a, acts));
    WiringEffect(dag, a, acts);
    AddEdges(g1, InEdges(a, acts))
  }

  /** The body of the `action(...)` decorator once the action is built:
      store it under its name (replacing an earlier one of that name in
      place), then wire the graph over every registered action, the new one
      included. */
  function Install(e: Engine, a: Action): (e': Engine)
    requires e.Valid() && WellFormed(a)
    ensures e'.Valid()
    ensures e'.registry == e.registry.Put(a.name, a)
    ensures e'.store == e.store && e'.baseType == e.baseType
    ensures e'.registered == e.registered + 1
    ensures e'.dag.edges.m.Keys == e.dag.edges.m.Keys + NewPairs(e.registry, a)
    ensures forall p :: p in NewPairs(e.registry, a) ==> e'.dag.edges.Get(p).Some? && Feeds(p, e'.dag.edges.Get(p).value)
    ensures forall p :: p !in NewPairs(e.registry, a) ==> e'.dag.edges.Get(p) == e.dag.edges.Get(p)
    ensures forall n :: n in e.dag.nodes.m ==> n in e'.dag.nodes.m && e.dag.nodes.m[n] <= e'.dag.nodes.m[n]
  {
    var reg := e.registry.Put(a.name, a);
    RegistryPut(e.registry, a);
    Engine(reg, e.store, e.baseType, Wire(e.dag, a, reg.Values()), e.registered + 1)
  }

  /** The `action(...)` decorator: a signature that cannot be turned into an
      action is rejected and the engine is left as it was. Otherwise the
      built action is stored under its name, replacing an earlier action of
      that name in place, every other name keeps its action and position,
      the store is untouched, and the graph gains exactly the wired pairs,
      each labelled by a name flowing from its source to its target. */
  function Register(e: Engine, name: string, final: bool, description: string, sig: Signature)
    : (r: Result<(Engine, Action), Fault>)
    requires e.Valid()
    ensures r.Ok? <==> Build(e.registered, name, final, description, sig).Ok?
    ensures r.Err? ==> r.error == Build(e.registered, name, final, description, sig).error
    ensures r.Ok? ==> r.value.1 == Build(e.registered, name, final, description, sig).value
    ensures r.Ok? ==> r.value.0.Valid() && r.value.1.name == name
    ensures r.Ok? ==>
              && r.value.0.registry.Get(name) == Some(r.value.1)
              && (forall n :: n != name ==> r.value.0.registry.Get(n) == e.registry.Get(n))
              && e.registry.keys <= r.value.0.registry.keys
              && (name in e.registry.m <==> r.value.0.registry.keys == e.registry.keys)
              && (name !in e.registry.m ==> r.value.0.registry.keys == e.registry.keys + [name])
              && r.value.0.registered == e.registered + 1
    ensures r.Ok? ==> r.value.0.store == e.store && r.value.0.baseType == e.baseType
    ensures r.Ok? ==> r.value.0.dag.edges.m.Keys == e.dag.edges.m.Keys + NewPairs(e.registry, r.value.1)
    ensures r.Ok? ==> forall p :: p in NewPairs(e.registry, r.value.1) ==>
              r.value.0.dag.edges.Get(p).Some? && Feeds(p, r.value.0.dag.edges.Get(p).value)
    ensures r.Ok? ==> forall p :: p !in NewPairs(e.registry, r.value.1) ==>
              r.value.0.dag.edges.Get(p) == e.dag.edges.Get(p)
  {
    match Build(e.registered, name, final, description, sig)
    case Err(f) => Err(f)
    case Ok(a) => Ok((Install(e, a), a))
  }

  /** A wired pair joins the new action to a registered consumer of one of
      its outputs, or a registered producer of one of its inputs to it. */
  lemma WiredPairsJoin(a: Action, acts: seq<Action>, p: (Action, Action))
    ensures p in WiredPairs(a, acts) <==>
              || (p.0 == a && p.1 in acts && exists l :: l in OutputNames(a) && l in p.1.inputs.m)
              || (p.1 == a && p.0 in acts && exists l :: l in OutputNames(p.0) && l in a.inputs.m)
  {
    var outs, ins := OutEdges(a, acts), InEdges(a, acts);
    if p in PairSet(outs) {
      var t := PairSetFrom(outs, p);
    } else if p in PairSet(ins) {
      var t := PairSetFrom(ins, p);
    }
    if p.0 == a && p.1 in acts && exists l :: l in OutputNames(a) && l in p.1.inputs.m {
      var l :| l in OutputNames(a) && l in p.1.inputs.m;
      PairSetHas(outs, (a, p.1, l));
    }
    if p.1 == a && p.0 in acts && exists l :: l in OutputNames(p.0) && l in a.inputs.m {
      var l :| l in OutputNames(p.0) && l in a.inputs.m;
      PairSetHas(ins, (p.0, a, l));
    }
  }

  /** `display_mermaid` over the engine's graph: each action shows its name
      and its `get_info` summaries. */
  function Mermaid(e: Engine): string
    requires e.Valid()
  {
    DisplayMermaid(e.dag, (a: Action) => a.name, (a: Action) => Info(a))
  }

  // ---------------------------------------------------------------------
  // Candidate filtering
  // ---------------------------------------------------------------------

  /** `s` is `t` with some elements left out, the rest in order. */
  ghost predicate IsSubsequence<T>(s: seq<T>, t: seq<T>)
    decreases |t|
  {
    if t == [] then s == []
    else (s != [] && s[0] == t[0] && IsSubsequence(s[1..], t[1..])) || IsSubsequence(s, t[1..])
  }

  function FilterInvocable(acts: seq<Action>, available: ParamSet): (r: seq<Action>)
    requires forall a :: a in acts ==> WellFormed(a)
    ensures forall a :: a in r <==> a in acts && CanInvokeWith(a, available)
    ensures IsSubsequence(r, acts)
  {
    if acts == [] then []
    else
      var rest := FilterInvocable(acts[1..], available);
      if CanInvokeWith(acts[0], available) then
        assert ([acts[0]] + rest)[1..] == rest;
        [acts[0]] + rest
      else rest
  }

  /** `_filter_actions`: the registered actions that can be invoked with the
      current store, in registration order. */
  function Candidates(reg: Registry, st: Store): (r: seq<Action>)
    requires RegistryValid(reg)
    ensures forall a :: a in r <==> a in reg.Values() && CanInvokeWith(a, st.decls)
    ensures IsSubsequence(r, reg.Values())
  {
    RegisteredWellFormed(reg);
    FilterInvocable(reg.Values(), st.decls)
  }

  // ---------------------------------------------------------------------
  // Cascading invalidation
  // ---------------------------------------------------------------------

  /** Some action of `acts` has an input `name` whose change invalidates `dep`. */
  ghost predicate DepEdge(acts: seq<Action>, name: string, dep: string) {
    exists i :: 0 <= i < |acts| && name in acts[i].inputs.m && dep in DepsOf(acts[i].inputs.m[name])
  }

  /** `rank` strictly decreases along every invalidation edge: the witness
      that the declared dependencies form no cycle. */
  ghost predicate RankedBy(acts: seq<Action>, rank: string -> nat) {
    forall i, name, dep :: 0 <= i < |acts| && name in acts[i].inputs.m && dep in DepsOf(acts[i].inputs.m[name]) ==>
      rank(dep) < rank(name)
  }

  /** `_cascade(name)`: for each registered action in order, if it has an
      input called `name`, each of that input's deps is discarded and then
      cascaded from. */
  function CascadeFrom(acts: seq<Action>, st: Store, name: string, ghost rank: string -> nat): (r: Store)
    requires RankedBy(acts, rank) && st.Valid()
    ensures r.Valid()
    decreases rank(name), 2, 0
  {
    CascadeOver(acts, st, name, 0, rank)
  }

  function CascadeOver(acts: seq<Action>, st: Store, name: string, i: nat, ghost rank: string -> nat): (r: Store)
    requires RankedBy(acts, rank) && st.Valid() && i <= |acts|
    ensures r.Valid()
    decreases rank(name), 1, |acts| - i
  {
    if i == |acts| then st
    else if name in acts[i].inputs.m then
      CascadeOver(acts, CascadeDeps(acts, st, name, DepsOf(acts[i].inputs.m[name]), rank), name, i + 1, rank)
    else CascadeOver(acts, st, name, i + 1, rank)
  }

  function CascadeDeps(acts: seq<Action>, st: Store, name: string, deps: seq<string>, ghost rank: string -> nat)
    : (r: Store)
    requires RankedBy(acts, rank) && st.Valid()
    requires forall d :: d in deps ==> rank(d) < rank(name)
    ensures r.Valid()
    decreases rank(name), 0, |deps|
  {
    if deps == [] then st
    else CascadeDeps(acts, CascadeFrom(acts, DiscardState(st, deps[0]), deps[0], rank), name, deps[1..], rank)
  }

  /** The names a change of `name` invalidates: its declared deps and,
      transitively, theirs. */
  ghost function Invalidated(acts: seq<Action>, name: string, rank: string -> nat): set<string>
    requires RankedBy(acts, rank)
    decreases rank(name), 2, 0
  {
    InvalidatedOver(acts, name, 0, rank)
  }

  ghost function InvalidatedOver(acts: seq<Action>, name: string, i: nat, rank: string -> nat): set<string>
    requires RankedBy(acts, rank) && i <= |acts|
    decreases rank(name), 1, |acts| - i
  {
    if i == |acts| then {}
    else if name in acts[i].inputs.m then
      InvalidatedDeps(acts, name, DepsOf(acts[i].inputs.m[name]), rank) + InvalidatedOver(acts, name, i + 1, rank)
    else InvalidatedOver(acts, name, i + 1, rank)
  }

  ghost function InvalidatedDeps(acts: seq<Action>, name: string, deps: seq<string>, rank: string -> nat)
    : set<string>
    requires RankedBy(acts, rank)
    requires forall d :: d in deps ==> rank(d) < rank(name)
    decreases rank(name), 0, |deps|
  {
    if deps == [] then {}
    else {deps[0]} + Invalidated(acts, deps[0], rank) + InvalidatedDeps(acts, name, deps[1..], rank)
  }

  /** Cascading from `name` discards exactly the names it invalidates. */
  lemma {:induction false} CascadeDiscardsInvalidated(acts: seq<Action>, st: Store, name: string, rank: string -> nat)
    requires RankedBy(acts, rank) && st.Valid()
    ensures CascadeFrom(acts, st, name, rank) == DiscardAll(st, Invalidated(acts, name, rank))
    decreases rank(name), 2, 0
  {
    CascadeOverDiscards(acts, st, name, 0, rank);
  }

  lemma {:induction false} CascadeOverDiscards(acts: seq<Action>, st: Store, name: string, i: nat, rank: string -> nat)
    requires RankedBy(acts, rank) && st.Valid() && i <= |acts|
    ensures CascadeOver(acts, st, name, i, rank) == DiscardAll(st, InvalidatedOver(acts, name, i, rank))
    decreases rank(name), 1, |acts| - i
  {
    if i == |acts| {
      DiscardNothing(st);
    } else if name in acts[i].inputs.m {
      var deps := DepsOf(acts[i].inputs.m[name]);
      var here := InvalidatedDeps(acts, name, deps, rank);
      var st1 := CascadeDeps(acts, st, name, deps, rank);
      CascadeDepsDiscards(acts, st, name, deps, rank);
      CascadeOverDiscards(acts, st1, name, i + 1, rank);
      DiscardAllTwice(st, here, InvalidatedOver(acts, name, i + 1, rank));
    } else {
      CascadeOverDiscards(acts, st, name, i + 1, rank);
    }
  }

  lemma {:induction false} CascadeDepsDiscards(acts: seq<Action>, st: Store, name: string, deps: seq<string>, rank: string -> nat)
    requires RankedBy(acts, rank) && st.Valid()
    requires forall d :: d in deps ==> rank(d) < rank(name)
    ensures CascadeDeps(acts, st, name, deps, rank) == DiscardAll(st, InvalidatedDeps(acts, name, deps, rank))
    decreases rank(name), 0, |deps|
  {
    if deps == [] {
      DiscardNothing(st);
    } else {
      var d := deps[0];
      var st0 := DiscardState(st, d);
      var st1 := CascadeFrom(acts, st0, d, rank);
      var inv := Invalidated(acts, d, rank);
      var rest := InvalidatedDeps(acts, name, deps[1..], rank);
      DiscardIsDiscardAll(st, d);
      CascadeDiscardsInvalidated(acts, st0, d, rank);
      DiscardAllTwice(st, {d}, inv);
      CascadeDepsDiscards(acts, st1, name, deps[1..], rank);
      DiscardAllTwice(st, {d} + inv, rest);
    }
  }

  /** Everything `name` invalidates ranks below it; in particular a cascade
      never discards the name it starts from. */
  lemma {:induction false} InvalidatedRankBelow(acts: seq<Action>, name: string, rank: string -> nat)
    requires RankedBy(acts, rank)
    ensures forall x :: x in Invalidated(acts, name, rank) ==> rank(x) < rank(name)
    ensures name !in Invalidated(acts, name, rank)
    decreases rank(name), 2, 0
  {
    InvalidatedOverRankBelow(acts, name, 0, rank);
  }

  lemma {:induction false} InvalidatedOverRankBelow(acts: seq<Action>, name: string, i: nat, rank: string -> nat)
    requires RankedBy(acts, rank) && i <= |acts|
    ensures forall x :: x in InvalidatedOver(acts, name, i, rank) ==> rank(x) < rank(name)
    decreases rank(name), 1, |acts| - i
  {
    if i < |acts| {
      if name in acts[i].inputs.m {
        InvalidatedDepsRankBelow(acts, name, DepsOf(acts[i].inputs.m[name]), rank);
      }
      InvalidatedOverRankBelow(acts, name, i + 1, rank);
    }
  }

  lemma {:induction false} InvalidatedDepsRankBelow(acts: seq<Action>, name: string, deps: seq<string>, rank: string -> nat)
    requires RankedBy(acts, rank)
    requires forall d :: d in deps ==> rank(d) < rank(name)
    ensures forall x :: x in InvalidatedDeps(acts, name, deps, rank) ==> rank(x) < rank(name)
    decreases rank(name), 0, |deps|
  {
    if deps != [] {
      InvalidatedRankBelow(acts, deps[0], rank);
      InvalidatedDepsRankBelow(acts, name, deps[1..], rank);
    }
  }

  /** A declared dep of `name` is invalidated by it, and so is everything
      that dep invalidates. */
  lemma InvalidatedIncludesDeps(acts: seq<Action>, name: string, dep: string, rank: string -> nat)
    requires RankedBy(acts, rank) && DepEdge(acts, name, dep)
    ensures dep in Invalidated(acts, name, rank)
    ensures Invalidated(acts, dep, rank) <= Invalidated(acts, name, rank)
  {
    var i :| 0 <= i < |acts| && name in acts[i].inputs.m && dep in DepsOf(acts[i].inputs.m[name]);
    InvalidatedOverIncludes(acts, name, 0, i, rank);
    InvalidatedDepsIncludes(acts, name, DepsOf(acts[i].inputs.m[name]), dep, rank);
  }

  lemma {:induction false} InvalidatedOverIncludes(acts: seq<Action>, name: string, j: nat, i: nat, rank: string -> nat)
    requires RankedBy(acts, rank) && j <= i < |acts| && name in acts[i].inputs.m
    ensures InvalidatedDeps(acts, name, DepsOf(acts[i].inputs.m[name]), rank) <= InvalidatedOver(acts, name, j, rank)
    decreases i - j
  {
    if j < i {
      InvalidatedOverIncludes(acts, name, j + 1, i, rank);
    }
  }

  lemma {:induction false} InvalidatedDepsIncludes(acts: seq<Action>, name: string, deps: seq<string>, dep: string, rank: string -> nat)
    requires RankedBy(acts, rank) && dep in deps
    requires forall d :: d in deps ==> rank(d) < rank(name)
    ensures {dep} + Invalidated(acts, dep, rank) <= InvalidatedDeps(acts, name, deps, rank)
    decreases |deps|
  {
    if dep != deps[0] {
      InvalidatedDepsIncludes(acts, name, deps[1..], dep, rank);
    }
  }

  /** Conversely, a name is invalidated by `name` only as a declared dep of
      `name` or through one. */
  lemma InvalidatedOnlyThroughDeps(acts: seq<Action>, name: string, x: string, rank: string -> nat)
    requires RankedBy(acts, rank) && x in Invalidated(acts, name, rank)
    ensures exists dep :: DepEdge(acts, name, dep) && (x == dep || x in Invalidated(acts, dep, rank))
  {
    var i := InvalidatedOverOnly(acts, name, 0, x, rank);
    var dep := InvalidatedDepsOnly(acts, name, DepsOf(acts[i].inputs.m[name]), x, rank);
    assert DepEdge(acts, name, dep);
  }

  lemma {:induction false} InvalidatedOverOnly(acts: seq<Action>, name: string, j: nat, x: string, rank: string -> nat)
    returns (i: nat)
    requires RankedBy(acts, rank) && j <= |acts| && x in InvalidatedOver(acts, name, j, rank)
    ensures j <= i < |acts| && name in acts[i].inputs.m
    ensures x in InvalidatedDeps(acts, name, DepsOf(acts[i].inputs.m[name]), rank)
    decreases |acts| - j
  {
    if name in acts[j].inputs.m && x in InvalidatedDeps(acts, name, DepsOf(acts[j].inputs.m[name]), rank) {
      i := j;
    } else {
      i := InvalidatedOverOnly(acts, name, j + 1, x, rank);
    }
  }

  lemma {:induction false} InvalidatedDepsOnly(acts: seq<Action>, name: string, deps: seq<string>, x: string, rank: string -> nat)
    returns (dep: string)
    requires RankedBy(acts, rank) && forall d :: d in deps ==> rank(d) < rank(name)
    requires x in InvalidatedDeps(acts, name, deps, rank)
    ensures dep in deps && (x == dep || x in Invalidated(acts, dep, rank))
    decreases |deps|
  {
    if x == deps[0] || x in Invalidated(acts, deps[0], rank) {
      dep := deps[0];
    } else {
      dep := InvalidatedDepsOnly(acts, name, deps[1..], x, rank);
    }
  }

  // ---------------------------------------------------------------------
  // Applying outputs
  // ---------------------------------------------------------------------

  /** `_update`: a `None` value changes nothing; otherwise the value is
      stored under a plain declaration of the output's name and type (a
      value of another type is the `set_state` assertion failure), and a
      cascading output then invalidates what depends on it. */
  function Update(acts: seq<Action>, st: Store, p: Param, v: PyValue, ghost rank: string -> nat)
    : (r: Result<Store, Fault>)
    requires st.Valid() && (Cascades(p) ==> RankedBy(acts, rank))
    ensures v == PyNone ==> r == Ok(st)
    ensures v != PyNone ==> (r.Ok? <==> IsInstance(v, p.ty))
    ensures r.Err? ==> r.error == NotInstance(p.name)
    ensures r.Ok? ==> r.value.Valid()
  {
    if v == PyNone then Ok(st)
    else
      match SetState(st, Plain(p.name, p.ty), v)
      case Err(f) => Err(f)
      case Ok(st1) => Ok(if Cascades(p) then CascadeFrom(acts, st1, p.name, rank) else st1)
  }

  /** After an update the new value is readable under its name, whatever the
      cascade discards; a cascade discards exactly the invalidated names, and
      every other name keeps its declaration and value. */
  lemma UpdateEffect(acts: seq<Action>, st: Store, p: Param, v: PyValue, rank: string -> nat)
    requires st.Valid() && (Cascades(p) ==> RankedBy(acts, rank))
    requires v != PyNone && IsInstance(v, p.ty)
    ensures var st' := Update(acts, st, p, v, rank).value;
            && GetState(st', p.name) == v
            && st'.decls.Get(p.name) == Some(Plain(p.name, p.ty))
            && (forall n :: Cascades(p) && n in Invalidated(acts, p.name, rank) ==>
                  GetState(st', n) == PyNone && !Contains(st'.decls, n))
            && (forall n :: n != p.name && !(Cascades(p) && n in Invalidated(acts, p.name, rank)) ==>
                  GetState(st', n) == GetState(st, n) && st'.decls.Get(n) == st.decls.Get(n))
  {
    var st1 := SetState(st, Plain(p.name, p.ty), v).value;
    if Cascades(p) {
      CascadeDiscardsInvalidated(acts, st1, p.name, rank);
      InvalidatedRankBelow(acts, p.name, rank);
    }
  }

  /** The loop `for param, val in result: self._update(param, val)`; the
      first failing update ends it. */
  function ApplyAll(acts: seq<Action>, st: Store, pairs: seq<(Param, PyValue)>, ghost rank: string -> nat)
    : (r: Result<Store, Fault>)
    requires RankedBy(acts, rank) && st.Valid()
    ensures r.Ok? <==> forall i :: 0 <= i < |pairs| && pairs[i].1 != PyNone ==> IsInstance(pairs[i].1, pairs[i].0.ty)
    ensures r.Ok? ==> r.value.Valid()
    ensures pairs == [] ==> r == Ok(st)
    decreases |pairs|
  {
    if pairs == [] then Ok(st)
    else
      match Update(acts, st, pairs[0].0, pairs[0].1, rank)
      case Err(f) => Err(f)
      case Ok(st1) =>
        var rest := ApplyAll(acts, st1, pairs[1..], rank);
        assert forall i :: 1 <= i < |pairs| ==> pairs[i] == pairs[1..][i - 1];
        rest
  }

  /** Applying `xs + ys` applies `xs`, then `ys` to the store that leaves;
      a failure in `xs` ends it. */
  lemma {:induction false} ApplyAllAppend(acts: seq<Action>, st: Store, xs: seq<(Param, PyValue)>,
                                          ys: seq<(Param, PyValue)>, rank: string -> nat)
    requires RankedBy(acts, rank) && st.Valid()
    ensures ApplyAll(acts, st, xs + ys, rank)
              == match ApplyAll(acts, st, xs, rank)
                 case Ok(s) => ApplyAll(acts, s, ys, rank)
                 case Err(f) => Err(f)
    decreases |xs|
  {
    if xs == [] {
      assert xs + ys == ys;
    } else {
      assert (xs + ys)[0] == xs[0];
      assert (xs + ys)[1..] == xs[1..] + ys;
      match Update(acts, st, xs[0].0, xs[0].1, rank)
      case Err(f) =>
      case Ok(st1) =>
        ApplyAllAppend(acts, st1, xs[1..], ys, rank);
    }
  }

  /** The last pair applied is readable afterwards: whatever earlier pairs
      cascaded, a non-`None` last value is stored under a plain declaration
      of its output's name and type. */
  lemma ApplyAllLastReadable(acts: seq<Action>, st: Store, pairs: seq<(Param, PyValue)>, rank: string -> nat)
    requires RankedBy(acts, rank) && st.Valid()
    requires ApplyAll(acts, st, pairs, rank).Ok? && pairs != [] && pairs[|pairs| - 1].1 != PyNone
    ensures var last := pairs[|pairs| - 1];
            && GetState(ApplyAll(acts, st, pairs, rank).value, last.0.name) == last.1
            && ApplyAll(acts, st, pairs, rank).value.decls.Get(last.0.name) == Some(Plain(last.0.name, last.0.ty))
  {
    var init, last := pairs[..|pairs| - 1], pairs[|pairs| - 1];
    assert pairs == init + [last];
    ApplyAllThenOne(acts, st, init, last, rank);
  }

  lemma ApplyAllThenOne(acts: seq<Action>, st: Store, init: seq<(Param, PyValue)>, last: (Param, PyValue),
                        rank: string -> nat)
    requires RankedBy(acts, rank) && st.Valid()
    requires ApplyAll(acts, st, init + [last], rank).Ok? && last.1 != PyNone
    ensures GetState(ApplyAll(acts, st, init + [last], rank).value, last.0.name) == last.1
    ensures ApplyAll(acts, st, init + [last], rank).value.decls.Get(last.0.name) == Some(Plain(last.0.name, last.0.ty))
  {
    ApplyAllAppend(acts, st, init, [last], rank);
    var s := ApplyAll(acts, st, init, rank).value;
    ApplyAllOne(acts, s, last, rank);
    UpdateEffect(acts, s, last.0, last.1, rank);
  }

  lemma ApplyAllOne(acts: seq<Action>, st: Store, x: (Param, PyValue), rank: string -> nat)
    requires RankedBy(acts, rank) && st.Valid()
    ensures ApplyAll(acts, st, [x], rank) == Update(acts, st, x.0, x.1, rank)
  {
    assert [x][1..] == [];
  }

  /** What `invoke` returns always applies: each value carries its own
      runtime type, so no update can fail. */
  lemma InvokedOutputsApply(acts: seq<Action>, st: Store, a: Action, body: map<string, PyValue> -> PyValue,
                            rank: string -> nat)
    requires RankedBy(acts, rank) && st.Valid()
    ensures ApplyAll(acts, st, Invoke(a, st, body), rank).Ok?
  {
    var pairs := Invoke(a, st, body);
    forall i | 0 <= i < |pairs|
      ensures IsInstance(pairs[i].1, pairs[i].0.ty)
    {
      InstanceOfOwnType(pairs[i].1);
    }
  }

  /** One turn of the loop for the chosen action: invoke it on the store and
      apply what it returns. */
  function Advance(acts: seq<Action>, st: Store, a: Action, body: Action -> map<string, PyValue> -> PyValue,
                   ghost rank: string -> nat): (r: Store)
    requires RankedBy(acts, rank) && st.Valid()
    ensures r.Valid()
    ensures Ok(r) == ApplyAll(acts, st, Invoke(a, st, body(a)), rank)
  {
    InvokedOutputsApply(acts, st, a, body(a), rank);
    ApplyAll(acts, st, Invoke(a, st, body(a)), rank).value
  }

  // ---------------------------------------------------------------------
  // The run loop
  // ---------------------------------------------------------------------

  /** One pass of `while True`: the store the selector saw and the action it chose. */
  datatype Turn = Turn(before: Store, chosen: Action)

  /** How the loop ended: a final action ran, or the fuel ran out first. */
  datatype Outcome = Finished | OutOfFuel

  datatype Trace = Trace(outcome: Outcome, store: Store, turns: seq<Turn>)

  /** The selector: the current `base` value and the candidates, to the action to run. */
  type Selector = (PyValue, seq<Action>) -> Action

  /** Each action's function body, from its arguments to its return value. */
  type Bodies = Action -> map<string, PyValue> -> PyValue

  /** `turns` is what the loop does from `st` until `end`: each turn sees
      the store the previous one produced, runs the action the selector
      picks from the candidates for that store, and only the last turn may
      run a final action. */
  ghost predicate Follows(reg: Registry, select: Selector, body: Bodies, rank: string -> nat,
                          st: Store, turns: seq<Turn>, end: Store)
    requires RegistryValid(reg) && RankedBy(reg.Values(), rank) && st.Valid()
    decreases |turns|
  {
    if turns == [] then end == st
    else
      && turns[0].before == st
      && turns[0].chosen == select(GetState(st, "base"), Candidates(reg, st))
      && (turns[0].chosen.final ==> |turns| == 1)
      && Follows(reg, select, body, rank, Advance(reg.Values(), st, turns[0].chosen, body, rank), turns[1..], end)
  }

  /** `while True`: filter, select, invoke, apply, and stop after a final
      action; at most `fuel` passes. */
  function Loop(reg: Registry, st: Store, select: Selector, body: Bodies, fuel: nat, ghost rank: string -> nat)
    : (r: Trace)
    requires RegistryValid(reg) && RankedBy(reg.Values(), rank) && st.Valid()
    ensures r.store.Valid()
    ensures |r.turns| <= fuel
    ensures r.outcome == Finished <==> r.turns != [] && r.turns[|r.turns| - 1].chosen.final
    ensures r.outcome == OutOfFuel ==> |r.turns| == fuel
    ensures Follows(reg, select, body, rank, st, r.turns, r.store)
    decreases fuel
  {
    if fuel == 0 then Trace(OutOfFuel, st, [])
    else
      var a := select(GetState(st, "base"), Candidates(reg, st));
      var st1 := Advance(reg.Values(), st, a, body, rank);
      if a.final then Trace(Finished, st1, [Turn(st, a)])
      else
        var rest := Loop(reg, st1, select, body, fuel - 1, rank);
        var turns := [Turn(st, a)] + rest.turns;
        assert turns[1..] == rest.turns;
        Trace(rest.outcome, rest.store, turns)
  }

  /** Turn by turn: each store seen is well-formed, each action is the
      selector's pick for it, and no action before the last is final. */
  lemma {:induction false} FollowsAt(reg: Registry, select: Selector, body: Bodies, rank: string -> nat,
                                     st: Store, turns: seq<Turn>, end: Store, i: nat)
    requires RegistryValid(reg) && RankedBy(reg.Values(), rank) && st.Valid()
    requires Follows(reg, select, body, rank, st, turns, end) && i < |turns|
    ensures turns[i].before.Valid()
    ensures turns[i].chosen == select(GetState(turns[i].before, "base"), Candidates(reg, turns[i].before))
    ensures i < |turns| - 1 ==> !turns[i].chosen.final
    decreases i
  {
    if i > 0 {
      var st1 := Advance(reg.Values(), st, turns[0].chosen, body, rank);
      FollowsAt(reg, select, body, rank, st1, turns[1..], end, i - 1);
      assert turns[1..][i - 1] == turns[i];
    }
  }

  /** With a selector that always picks one of the candidates it is given,
      every action the loop runs (when there was a candidate) is registered
      and invocable with the store it ran on, so each of its arguments is
      present and an instance of the declared input type. */
  lemma HonestSelectorRunsCandidates(reg: Registry, st: Store, select: Selector, body: Bodies, fuel: nat,
                                     rank: string -> nat, i: nat)
    requires RegistryValid(reg) && RankedBy(reg.Values(), rank) && st.Valid()
    requires forall b, cs :: cs != [] ==> select(b, cs) in cs
    requires i < |Loop(reg, st, select, body, fuel, rank).turns|
    requires Candidates(reg, Loop(reg, st, select, body, fuel, rank).turns[i].before) != []
    ensures var t := Loop(reg, st, select, body, fuel, rank).turns[i];
            && t.chosen in reg.Values()
            && CanInvokeWith(t.chosen, t.before.decls)
            && forall n :: n in Arguments(t.chosen, t.before) ==>
                 Arguments(t.chosen, t.before)[n] != PyNone
                 && IsInstance(Arguments(t.chosen, t.before)[n], t.chosen.inputs.m[n].ty)
  {
    var r := Loop(reg, st, select, body, fuel, rank);
    FollowsAt(reg, select, body, rank, st, r.turns, r.store, i);
    var t := r.turns[i];
    RegisteredWellFormed(reg);
    InvocableArgumentsWellTyped(t.chosen, t.before);
  }

  // ---------------------------------------------------------------------
  // Starting a run
  // ---------------------------------------------------------------------

  /** The names of the inputs that `zip` pairs with an argument. */
  ghost function PairedNames(inputs: seq<Param>, args: seq<PyValue>): set<string> {
    if inputs == [] || args == [] then {} else {inputs[0].name} + PairedNames(inputs[1..], args[1..])
  }

  ghost function KeywordNames(kwargs: seq<(string, PyValue)>): set<string> {
    if kwargs == [] then {} else {kwargs[0].0} + KeywordNames(kwargs[1..])
  }

  /** The positional arguments: zipped with the entry point's inputs in
      order (the first input included), surplus on either side dropped;
      each is stored under a plain declaration of its input's name and
      type. */
  function BindPositional(st: Store, inputs: seq<Param>, args: seq<PyValue>): (r: Result<Store, Fault>)
    requires st.Valid()
    ensures r.Ok? <==> forall i :: 0 <= i < |inputs| && i < |args| && args[i] != PyNone ==>
                         IsInstance(args[i], inputs[i].ty)
    ensures r.Ok? ==> r.value.Valid()
    ensures r.Ok? ==> forall n :: n !in PairedNames(inputs, args) ==>
              GetState(r.value, n) == GetState(st, n) && r.value.decls.Get(n) == st.decls.Get(n)
    decreases |inputs|
  {
    if inputs == [] || args == [] then Ok(st)
    else
      match SetState(st, Plain(inputs[0].name, inputs[0].ty), args[0])
      case Err(f) => Err(f)
      case Ok(st1) =>
        assert forall i :: 1 <= i < |inputs| && i < |args| ==> inputs[i] == inputs[1..][i - 1] && args[i] == args[1..][i - 1];
        BindPositional(st1, inputs[1..], args[1..])
  }

  /** The keyword arguments in order: a name that is not an input of the
      entry point is the `assert param` failure; otherwise the value is
      stored under a plain declaration of that input's name and type. */
  function BindKeywords(st: Store, entry: Action, kwargs: seq<(string, PyValue)>): (r: Result<Store, Fault>)
    requires st.Valid() && WellFormed(entry)
    ensures r.Ok? <==> forall i :: 0 <= i < |kwargs| ==>
                         && Contains(entry.inputs, kwargs[i].0)
                         && (kwargs[i].1 != PyNone ==> IsInstance(kwargs[i].1, entry.inputs.m[kwargs[i].0].ty))
    ensures r.Ok? ==> r.value.Valid()
    ensures r.Ok? ==> forall n :: n !in KeywordNames(kwargs) ==>
              GetState(r.value, n) == GetState(st, n) && r.value.decls.Get(n) == st.decls.Get(n)
    decreases |kwargs|
  {
    if kwargs == [] then Ok(st)
    else
      match GetInputParam(entry, kwargs[0].0)
      case None => Err(UnknownKeyword(kwargs[0].0))
      case Some(p) =>
        assert p == entry.inputs.m[kwargs[0].0];
        match SetState(st, Plain(p.name, p.ty), kwargs[0].1)
        case Err(f) => Err(f)
        case Ok(st1) =>
          assert forall i :: 1 <= i < |kwargs| ==> kwargs[i] == kwargs[1..][i - 1];
          BindKeywords(st1, entry, kwargs[1..])
  }

  /** `v` is what `set_state` leaves under `name` for a declaration of type
      `ty`: the value under a plain declaration, or, for `None`, neither. */
  ghost predicate Bound(st: Store, name: string, ty: TypeTag, v: PyValue) {
    && GetState(st, name) == v
    && st.decls.Get(name) == (if v == PyNone then None else Some(Plain(name, ty)))
  }

  lemma SetStateBinds(st: Store, name: string, ty: TypeTag, v: PyValue)
    requires st.Valid() && SetState(st, Plain(name, ty), v).Ok?
    ensures Bound(SetState(st, Plain(name, ty), v).value, name, ty, v)
  {
    if v == PyNone {
      ContainsIffListed(DiscardState(st, name).decls, name);
    }
  }

  lemma PairedNamesListed(inputs: seq<Param>, args: seq<PyValue>, n: string)
    requires n in PairedNames(inputs, args)
    ensures exists j :: 0 <= j < |inputs| && j < |args| && inputs[j].name == n
    decreases |inputs|
  {
    if inputs[0].name != n {
      PairedNamesListed(inputs[1..], args[1..], n);
      var j :| 0 <= j < |inputs[1..]| && j < |args[1..]| && inputs[1..][j].name == n;
      assert inputs[j + 1].name == n;
    }
  }

  /** With distinct input names, every positional value the `zip` pairs is
      stored under its input's name, with that input's type. */
  lemma {:induction false} BindPositionalStores(st: Store, inputs: seq<Param>, args: seq<PyValue>)
    requires st.Valid() && NoDup(Names(inputs))
    requires BindPositional(st, inputs, args).Ok?
    ensures forall i :: 0 <= i < |inputs| && i < |args| ==>
              Bound(BindPositional(st, inputs, args).value, inputs[i].name, inputs[i].ty, args[i])
    decreases |inputs|
  {
    if inputs != [] && args != [] {
      var st1 := SetState(st, Plain(inputs[0].name, inputs[0].ty), args[0]).value;
      var r := BindPositional(st, inputs, args).value;
      assert BindPositional(st, inputs, args) == BindPositional(st1, inputs[1..], args[1..]);
      assert NoDup(Names(inputs[1..])) by {
        assert forall k :: 0 <= k < |inputs[1..]| ==> Names(inputs[1..])[k] == Names(inputs)[k + 1];
      }
      BindPositionalStores(st1, inputs[1..], args[1..]);
      SetStateBinds(st, inputs[0].name, inputs[0].ty, args[0]);
      if inputs[0].name in PairedNames(inputs[1..], args[1..]) {
        PairedNamesListed(inputs[1..], args[1..], inputs[0].name);
      }
      forall i | 0 <= i < |inputs| && i < |args|
        ensures Bound(r, inputs[i].name, inputs[i].ty, args[i])
      {
        if i > 0 {
          assert inputs[i] == inputs[1..][i - 1] && args[i] == args[1..][i - 1];
        }
      }
    }
  }

  /** Every keyword value is stored under its input's name, with that
      input's type, unless a later keyword of the same name replaces it. */
  lemma {:induction false} BindKeywordsStores(st: Store, entry: Action, kwargs: seq<(string, PyValue)>)
    requires st.Valid() && WellFormed(entry)
    requires BindKeywords(st, entry, kwargs).Ok?
    ensures forall i :: 0 <= i < |kwargs| && kwargs[i].0 !in KeywordNames(kwargs[i + 1..]) ==>
              Bound(BindKeywords(st, entry, kwargs).value, kwargs[i].0, entry.inputs.m[kwargs[i].0].ty, kwargs[i].1)
    decreases |kwargs|
  {
    if kwargs != [] {
      var name := kwargs[0].0;
      var ty := entry.inputs.m[name].ty;
      assert GetInputParam(entry, name) == Some(entry.inputs.m[name]);
      var st1 := SetState(st, Plain(name, ty), kwargs[0].1).value;
      var r := BindKeywords(st, entry, kwargs).value;
      assert BindKeywords(st, entry, kwargs) == BindKeywords(st1, entry, kwargs[1..]);
      BindKeywordsStores(st1, entry, kwargs[1..]);
      SetStateBinds(st, name, ty, kwargs[0].1);
      forall i | 0 <= i < |kwargs| && kwargs[i].0 !in KeywordNames(kwargs[i + 1..])
        ensures Bound(r, kwargs[i].0, entry.inputs.m[kwargs[i].0].ty, kwargs[i].1)
      {
        if i == 0 {
          assert kwargs[1..] == kwargs[i + 1..];
        } else {
          assert kwargs[i] == kwargs[1..][i - 1];
          assert kwargs[i + 1..] == kwargs[1..][i - 1 + 1..];
        }
      }
    }
  }

  /** The store `run` hands to its loop: the base state stored under
      `"base"`, then, given an entry point, its arguments bound, the entry
      point invoked and its outputs applied. */
  function Start(e: Engine, base: PyValue, entry: Option<Action>, args: seq<PyValue>,
                 kwargs: seq<(string, PyValue)>, body: Bodies, ghost rank: string -> nat): (r: Result<Store, Fault>)
    requires e.Valid() && RankedBy(e.registry.Values(), rank)
    requires entry.Some? ==> WellFormed(entry.value)
    ensures r.Ok? ==> r.value.Valid()
    ensures base != PyNone && !IsInstance(base, e.baseType) ==> r == Err(NotInstance("base"))
    ensures entry.None? ==> r == SetState(e.store, Plain("base", e.baseType), base)
    ensures entry.None? ==> (r.Ok? <==> base == PyNone || IsInstance(base, e.baseType))
    ensures entry.None? && r.Ok? && base != PyNone ==>
              && GetState(r.value, "base") == base
              && r.value.decls.Get("base") == Some(Plain("base", e.baseType))
    ensures entry.Some? ==>
              (r.Ok? <==>
                 && (base == PyNone || IsInstance(base, e.baseType))
                 && var st0 := SetState(e.store, Plain("base", e.baseType), base).value;
                    && BindPositional(st0, entry.value.inputs.Values(), args).Ok?
                    && BindKeywords(BindPositional(st0, entry.value.inputs.Values(), args).value, entry.value, kwargs).Ok?)
    ensures entry.Some? && r.Ok? ==>
              var st0 := SetState(e.store, Plain("base", e.baseType), base).value;
              var st2 := BindKeywords(BindPositional(st0, entry.value.inputs.Values(), args).value, entry.value, kwargs).value;
              r.value == Advance(e.registry.Values(), st2, entry.value, body, rank)
  {
    match SetState(e.store, Plain("base", e.baseType), base)
    case Err(f) => Err(f)
    case Ok(st0) =>
      if entry.None? then Ok(st0)
      else
        match BindPositional(st0, entry.value.inputs.Values(), args)
        case Err(f) => Err(f)
        case Ok(st1) =>
          match BindKeywords(st1, entry.value, kwargs)
          case Err(f) => Err(f)
          case Ok(st2) => Ok(Advance(e.registry.Values(), st2, entry.value, body, rank))
  }

  /** With an entry point, the last value it returns, when not `None`, is
      in the store the loop starts from, under its output's name and type. */
  lemma StartKeepsLastOutput(e: Engine, base: PyValue, entry: Action, args: seq<PyValue>,
                             kwargs: seq<(string, PyValue)>, body: Bodies, rank: string -> nat)
    requires e.Valid() && RankedBy(e.registry.Values(), rank) && WellFormed(entry)
    requires Start(e, base, Some(entry), args, kwargs, body, rank).Ok?
    ensures var st0 := SetState(e.store, Plain("base", e.baseType), base).value;
            var st2 := BindKeywords(BindPositional(st0, entry.inputs.Values(), args).value, entry, kwargs).value;
            var pairs := Invoke(entry, st2, body(entry));
            var r := Start(e, base, Some(entry), args, kwargs, body, rank).value;
            pairs != [] && pairs[|pairs| - 1].1 != PyNone ==>
              && GetState(r, pairs[|pairs| - 1].0.name) == pairs[|pairs| - 1].1
              && r.decls.Get(pairs[|pairs| - 1].0.name) == Some(Plain(pairs[|pairs| - 1].0.name, pairs[|pairs| - 1].0.ty))
  {
    var st0 := SetState(e.store, Plain("base", e.baseType), base).value;
    var st2 := BindKeywords(BindPositional(st0, entry.inputs.Values(), args).value, entry, kwargs).value;
    var pairs := Invoke(entry, st2, body(entry));
    if pairs != [] && pairs[|pairs| - 1].1 != PyNone {
      ApplyAllLastReadable(e.registry.Values(), st2, pairs, rank);
    }
  }

  /** `run`: store the base state under `"base"`, then, given an entry
      point, bind its arguments, invoke it and apply what it returns; then
      loop. The engine keeps the store the run ends with. */
  function Run(e: Engine, base: PyValue, entry: Option<Action>, args: seq<PyValue>, kwargs: seq<(string, PyValue)>,
               select: Selector, body: Bodies, fuel: nat, ghost rank: string -> nat)
    : (r: Result<(Engine, Trace), Fault>)
    requires e.Valid() && RankedBy(e.registry.Values(), rank)
    requires entry.Some? ==> WellFormed(entry.value)
    ensures r.Ok? <==> Start(e, base, entry, args, kwargs, body, rank).Ok?
    ensures r.Err? ==> r.error == Start(e, base, entry, args, kwargs, body, rank).error
    ensures r.Ok? ==>
              && r.value.0.Valid()
              && r.value.0 == e.(store := r.value.1.store)
              && |r.value.1.turns| <= fuel
              && (r.value.1.outcome == Finished <==>
                    r.value.1.turns != [] && r.value.1.turns[|r.value.1.turns| - 1].chosen.final)
              && (r.value.1.outcome == OutOfFuel ==> |r.value.1.turns| == fuel)
              && Follows(e.registry, select, body, rank, Start(e, base, entry, args, kwargs, body, rank).value,
                         r.value.1.turns, r.value.1.store)
  {
    match Start(e, base, entry, args, kwargs, body, rank)
    case Err(f) => Err(f)
    case Ok(st) =>
      var t := Loop(e.registry, st, select, body, fuel, rank);
      Ok((e.(store := t.store), t))
  }
}

=== FILE: graph.dfy ===
/** The dependency graph: adjacency lists plus one label per ordered pair,
    both insertion-ordered (action_engine/graph.py). */
module Graphs {
  import opened Wrappers
  import opened Dict

  datatype Graph<N(!new), E> = Graph(nodes: Dict<N, seq<N>>, edges: Dict<(N, N), E>) {

    /** Every neighbour is a node joined by a labelled pair, and every
        labelled pair joins two nodes. */
    ghost predicate Valid() {
      nodes.Valid() && edges.Valid() && Linked(nodes.m, edges.m.Keys)
    }

    /** `add_node`: the node's adjacency becomes empty, even if it had some. */
    function AddNode(n: N): (g: Graph<N, E>)
      requires Valid()
      ensures g.Valid()
      ensures g.nodes.Get(n) == Some([])
      ensures forall x :: x != n ==> g.nodes.Get(x) == nodes.Get(x)
      ensures g.nodes.m.Keys == nodes.m.Keys + {n}
      ensures g.edges == edges
      ensures nodes.keys <= g.nodes.keys
      ensures |g.nodes.keys| == |nodes.keys| + (if n in nodes.m then 0 else 1)
    {
      LinkedClear(nodes.m, edges.m.Keys, n);
      Graph(nodes.Put(n, []), edges)
    }

    /** `add_edge`: missing endpoints are created first; then `n2` is
        appended to `n1`'s adjacency and the pair's label is (re)set. */
    function AddEdge(n1: N, n2: N, e: E): (g: Graph<N, E>)
      requires Valid()
      ensures g.Valid()
      ensures g.edges.Get((n1, n2)) == Some(e)
      ensures forall p :: p != (n1, n2) ==> g.edges.Get(p) == edges.Get(p)
      ensures g.nodes.Get(n1) == Some((if n1 in nodes.m then nodes.m[n1] else []) + [n2])
      ensures n2 != n1 ==> g.nodes.Get(n2) == Some(if n2 in nodes.m then nodes.m[n2] else [])
      ensures forall x :: x != n1 && x != n2 ==> g.nodes.Get(x) == nodes.Get(x)
      ensures g.edges.m.Keys == edges.m.Keys + {(n1, n2)}
      ensures nodes.keys <= g.nodes.keys
      ensures edges.keys <= g.edges.keys
    {
      var g1 := if n1 !in nodes.m then AddNode(n1) else this;
      var g2 := if n2 !in g1.nodes.m then g1.AddNode(n2) else g1;
      var adj := g2.nodes.m[n1] + [n2];
      LinkedAppend(g2.nodes.m, g2.edges.m.Keys, n1, n2);
      Graph(g2.nodes.Put(n1, adj), g2.edges.Put((n1, n2), e))
    }

    /** `get_neighbors`; `None` stands for the `KeyError` of an unknown node. */
    function GetNeighbors(n: N): (r: Option<seq<N>>)
      ensures r.Some? <==> n in nodes.m
      ensures Valid() && r.Some? ==> forall t :: t in r.value ==> t in nodes.m && (n, t) in edges.m
    {
      nodes.Get(n)
    }

    /** `get_nodes`: the nodes in insertion order, each once. */
    function GetNodes(): (r: seq<N>)
      ensures Valid() ==> NoDup(r) && forall n :: n in r <==> n in nodes.m
    {
      nodes.keys
    }

    /** `get_edges`: the label of each outgoing pair, in adjacency order;
        `None` stands for the `KeyError` of an unknown node. */
    function GetEdges(n: N): (r: Option<seq<E>>)
      requires Valid()
      ensures r.Some? <==> GetNeighbors(n).Some?
      ensures r.Some? ==>
                && |r.value| == |GetNeighbors(n).value|
                && forall i :: 0 <= i < |r.value| ==> r.value[i] == edges.m[(n, GetNeighbors(n).value[i])]
    {
      if n !in nodes.m then None else Some(LabelsOf(n, nodes.m[n]))
    }

    function LabelsOf(n: N, targets: seq<N>): (ls: seq<E>)
      requires forall t :: t in targets ==> (n, t) in edges.m
      ensures |ls| == |targets| && forall i :: 0 <= i < |targets| ==> ls[i] == edges.m[(n, targets[i])]
    {
      if targets == [] then []
      else
        assert forall t :: t in targets[1..] ==> t in targets;
        [edges.m[(n, targets[0])]] + LabelsOf(n, targets[1..])
    }
  }

  /** `get_nodes` after `add_node`: a new node goes last, and a known node
      keeps its place. */
  lemma AddNodeNodes<N(!new), E>(g: Graph<N, E>, n: N)
    requires g.Valid()
    ensures g.AddNode(n).GetNodes() == g.GetNodes() + (if n in g.nodes.m then [] else [n])
  {
  }

  /** `get_nodes` after `add_edge`: a missing source goes last, then a
      missing target; known nodes keep their places. */
  lemma AddEdgeNodes<N(!new), E>(g: Graph<N, E>, n1: N, n2: N, e: E)
    requires g.Valid()
    ensures g.AddEdge(n1, n2, e).GetNodes()
              == g.GetNodes() + (if n1 in g.nodes.m then [] else [n1])
                 + (if n2 in g.nodes.m || n2 == n1 then [] else [n2])
  {
    var g1 := if n1 !in g.nodes.m then g.AddNode(n1) else g;
    AddNodeNodes(g, n1);
    assert g1.GetNodes() == g.GetNodes() + (if n1 in g.nodes.m then [] else [n1]);
    assert n2 in g1.nodes.m <==> n2 in g.nodes.m || n2 == n1;
    AddNodeNodes(g1, n2);
  }

  /** `get_neighbors` after `add_edge`: the target is the last neighbour of
      the source, after the source's old neighbours; every node other than
      the two endpoints keeps its neighbours. */
  lemma AddEdgeNeighbors<N(!new), E>(g: Graph<N, E>, n1: N, n2: N, e: E)
    requires g.Valid()
    ensures g.AddEdge(n1, n2, e).GetNeighbors(n1)
              == Some((if n1 in g.nodes.m then g.nodes.m[n1] else []) + [n2])
    ensures forall x :: x != n1 && x != n2 ==> g.AddEdge(n1, n2, e).GetNeighbors(x) == g.GetNeighbors(x)
  {
  }

  /** Every neighbour is a node joined by a labelled pair, and every
      labelled pair joins two nodes. */
  ghost predicate Linked<N>(adj: map<N, seq<N>>, pairs: set<(N, N)>) {
    && (forall n, t :: n in adj && t in adj[n] ==> t in adj && (n, t) in pairs)
    && (forall p :: p in pairs ==> p.0 in adj && p.1 in adj)
  }

  lemma LinkedClear<N>(adj: map<N, seq<N>>, pairs: set<(N, N)>, n: N)
    requires Linked(adj, pairs)
    ensures Linked(adj[n := []], pairs)
  {
  }

  lemma LinkedAppend<N>(adj: map<N, seq<N>>, pairs: set<(N, N)>, n1: N, n2: N)
    requires Linked(adj, pairs) && n1 in adj && n2 in adj
    ensures Linked(adj[n1 := adj[n1] + [n2]], pairs + {(n1, n2)})
  {
  }

  function EmptyGraph<N(!new), E>(): (g: Graph<N, E>)
    ensures g.Valid() && g.GetNodes() == []
  {
    Graph(Empty(), Empty())
  }

  /** Every endpoint of every edge is listed by `get_nodes`. */
  lemma EndpointsAreNodes<N(!new), E>(g: Graph<N, E>, p: (N, N))
    requires g.Valid() && p in g.edges.m
    ensures p.0 in g.GetNodes() && p.1 in g.GetNodes()
  {
  }

  /** Adding the same pair twice keeps one label, the later one, while the
      adjacency list holds the target twice. */
  lemma {:induction false} ReAddEdge<N(!new), E>(g: Graph<N, E>, a: N, b: N, e1: E, e2: E)
    requires g.Valid()
    ensures g.AddEdge(a, b, e1).AddEdge(a, b, e2).edges.Get((a, b)) == Some(e2)
    ensures g.AddEdge(a, b, e1).AddEdge(a, b, e2).edges.keys == g.AddEdge(a, b, e1).edges.keys
    ensures var adj := g.AddEdge(a, b, e1).AddEdge(a, b, e2).GetNeighbors(a).value;
            |adj| >= 2 && adj[|adj| - 2] == b && adj[|adj| - 1] == b
  {
    var g1 := g.AddEdge(a, b, e1);
    var g2 := g1.AddEdge(a, b, e2);
    assert (a, b) in g1.edges.m;
    assert a in g1.nodes.m && b in g1.nodes.m;
    assert g2.edges.keys == g1.edges.keys;
  }

  /** The ordered pairs that a list of labelled edges joins. */
  ghost function PairSet<N, E>(ts: seq<(N, N, E)>): set<(N, N)> {
    if ts == [] then {} else {(ts[0].0, ts[0].1)} + PairSet(ts[1..])
  }

  /** Adds labelled edges in order. */
  function AddEdges<N(!new), E>(g: Graph<N, E>, ts: seq<(N, N, E)>): (r: Graph<N, E>)
    requires g.Valid()
    ensures r.Valid()
    decreases |ts|
  {
    if ts == [] then g
    else AddEdges(g.AddEdge(ts[0].0, ts[0].1, ts[0].2), ts[1..])
  }

  /** After adding a list of edges, the labelled pairs are the earlier ones
      and those of the list. */
  lemma {:induction false} AddEdgesPairs<N(!new), E>(g: Graph<N, E>, ts: seq<(N, N, E)>)
    requires g.Valid()
    ensures AddEdges(g, ts).edges.m.Keys == g.edges.m.Keys + PairSet(ts)
    decreases |ts|
  {
    if ts != [] {
      var g1 := g.AddEdge(ts[0].0, ts[0].1, ts[0].2);
      var first, rest := {(ts[0].0, ts[0].1)}, PairSet(ts[1..]);
      AddEdgesPairs(g1, ts[1..]);
      assert AddEdges(g, ts) == AddEdges(g1, ts[1..]);
      assert g1.edges.m.Keys == g.edges.m.Keys + first;
      assert PairSet(ts) == first + rest;
    }
  }

  /** Adding a list of edges keeps the earlier nodes, in their order. */
  lemma {:induction false} AddEdgesKeepsNodes<N(!new), E>(g: Graph<N, E>, ts: seq<(N, N, E)>)
    requires g.Valid()
    ensures g.nodes.keys <= AddEdges(g, ts).nodes.keys
    decreases |ts|
  {
    if ts != [] {
      AddEdgesKeepsNodes(g.AddEdge(ts[0].0, ts[0].1, ts[0].2), ts[1..]);
    }
  }

  /** Adding edges leaves the label of every pair not in the list alone. */
  lemma {:induction false} AddEdgesFrame<N(!new), E>(g: Graph<N, E>, ts: seq<(N, N, E)>, p: (N, N))
    requires g.Valid() && p !in PairSet(ts)
    ensures AddEdges(g, ts).edges.Get(p) == g.edges.Get(p)
    decreases |ts|
  {
    if ts != [] {
      AddEdgesFrame(g.AddEdge(ts[0].0, ts[0].1, ts[0].2), ts[1..], p);
    }
  }

  /** The position of the last entry of `ts` joining the pair `p`. */
  ghost function LastEntry<N, E>(ts: seq<(N, N, E)>, p: (N, N)): (i: nat)
    requires p in PairSet(ts)
    ensures i < |ts|
    decreases |ts|
  {
    if p in PairSet(ts[1..]) then 1 + LastEntry(ts[1..], p) else 0
  }

  /** `LastEntry` joins `p`, and no later entry does. */
  lemma {:induction false} LastEntryIsLast<N, E>(ts: seq<(N, N, E)>, p: (N, N))
    requires p in PairSet(ts)
    ensures (ts[LastEntry(ts, p)].0, ts[LastEntry(ts, p)].1) == p
    ensures forall j :: LastEntry(ts, p) < j < |ts| ==> (ts[j].0, ts[j].1) != p
    decreases |ts|
  {
    if p in PairSet(ts[1..]) {
      var k := LastEntry(ts[1..], p);
      LastEntryIsLast(ts[1..], p);
      assert ts[k + 1] == ts[1..][k];
      forall j | k + 1 < j < |ts|
        ensures (ts[j].0, ts[j].1) != p
      {
        assert ts[j] == ts[1..][j - 1];
      }
    } else {
      forall j | 0 < j < |ts|
        ensures (ts[j].0, ts[j].1) != p
      {
        PairSetHas(ts[1..], ts[j]);
      }
    }
  }

  /** A pair in the list ends up labelled by its last entry. */
  lemma {:induction false} AddEdgesLabel<N(!new), E>(g: Graph<N, E>, ts: seq<(N, N, E)>, p: (N, N))
    requires g.Valid() && p in PairSet(ts)
    ensures AddEdges(g, ts).edges.Get(p) == Some(ts[LastEntry(ts, p)].2)
    decreases |ts|
  {
    var g1 := g.AddEdge(ts[0].0, ts[0].1, ts[0].2);
    if p in PairSet(ts[1..]) {
      AddEdgesLabel(g1, ts[1..], p);
      var k := LastEntry(ts[1..], p);
      assert LastEntry(ts, p) == k + 1;
      assert ts[k + 1] == ts[1..][k];
    } else {
      AddEdgesFrame(g1, ts[1..], p);
    }
  }

  /** Every pair in `PairSet(ts)` comes from some element of `ts`. */
  lemma {:induction false} PairSetFrom<N, E>(ts: seq<(N, N, E)>, p: (N, N)) returns (t: (N, N, E))
    requires p in PairSet(ts)
    ensures t in ts && p == (t.0, t.1)
  {
    if p == (ts[0].0, ts[0].1) {
      t := ts[0];
    } else {
      t := PairSetFrom(ts[1..], p);
    }
  }

  /** Every element of `ts` contributes its pair. */
  lemma {:induction false} PairSetHas<N, E>(ts: seq<(N, N, E)>, t: (N, N, E))
    requires t in ts
    ensures (t.0, t.1) in PairSet(ts)
  {
    if t != ts[0] {
      PairSetHas(ts[1..], t);
    }
  }

  /** Adding edges only appends to adjacency lists and never drops a node. */
  lemma {:induction false} AddEdgesGrowsAdjacency<N(!new), E>(g: Graph<N, E>, ts: seq<(N, N, E)>, n: N)
    requires g.Valid() && n in g.nodes.m
    ensures n in AddEdges(g, ts).nodes.m && g.nodes.m[n] <= AddEdges(g, ts).nodes.m[n]
    decreases |ts|
  {
    if ts != [] {
      var g1 := g.AddEdge(ts[0].0, ts[0].1, ts[0].2);
      assert n in g1.nodes.m && g.nodes.m[n] <= g1.nodes.m[n] by {
        assert g1.nodes.Get(n).Some?;
      }
      AddEdgesGrowsAdjacency(g1, ts[1..], n);
    }
  }

  function Join(ss: seq<string>, sep: string): string {
    if ss == [] then ""
    else if |ss| == 1 then ss[0]
    else ss[0] + sep + Join(ss[1..], sep)
  }

  /** A node's block: its name, then its diagnostic summaries. */
  function NodeSegment(name: string, info: seq<string>): string {
    name + "(" + name + " \n +++++++++++++ \n " + Join(info, "+++++++++++++\n") + ")"
  }

  function EdgeSegment(source: string, tag: string, target: string): string {
    source + " -- " + tag + " --> " + target
  }

  function NodeSegments<N>(ns: seq<N>, nameOf: N -> string, infoOf: N -> seq<string>): (ss: seq<string>)
    ensures |ss| == |ns| && forall i :: 0 <= i < |ns| ==> ss[i] == NodeSegment(nameOf(ns[i]), infoOf(ns[i]))
  {
    if ns == [] then [] else [NodeSegment(nameOf(ns[0]), infoOf(ns[0]))] + NodeSegments(ns[1..], nameOf, infoOf)
  }

  function EdgeSegments<N(==,!new)>(ps: seq<(N, N)>, labels: map<(N, N), string>, nameOf: N -> string): (ss: seq<string>)
    requires forall p :: p in ps ==> p in labels
    ensures |ss| == |ps| && forall i :: 0 <= i < |ps| ==>
              ss[i] == EdgeSegment(nameOf(ps[i].0), labels[ps[i]], nameOf(ps[i].1))
  {
    if ps == [] then []
    else
      assert forall p :: p in ps[1..] ==> p in ps;
      [EdgeSegment(nameOf(ps[0].0), labels[ps[0]], nameOf(ps[0].1))] + EdgeSegments(ps[1..], labels, nameOf)
  }

  /** The pieces `display_mermaid` joins: the header, one block per node
      (isolated nodes included), then one line per labelled pair. */
  function MermaidSegments<N(!new)>(g: Graph<N, string>, nameOf: N -> string, infoOf: N -> seq<string>)
    : (ss: seq<string>)
    requires g.edges.Valid()
    ensures |ss| == 1 + |g.GetNodes()| + |g.edges.keys|
    ensures ss[0] == "graph TD\n"
    ensures ss[1..1 + |g.GetNodes()|] == NodeSegments(g.GetNodes(), nameOf, infoOf)
    ensures ss[1 + |g.GetNodes()|..] == EdgeSegments(g.edges.keys, g.edges.m, nameOf)
  {
    var ns := NodeSegments(g.nodes.keys, nameOf, infoOf);
    var es := EdgeSegments(g.edges.keys, g.edges.m, nameOf);
    assert ([("graph TD\n")] + ns + es)[1..1 + |ns|] == ns;
    ["graph TD\n"] + ns + es
  }

  /** Joining keeps the first piece at the front, and with a second piece
      the separator follows it. */
  lemma JoinFirst(ss: seq<string>, sep: string)
    requires ss != []
    ensures ss[0] <= Join(ss, sep)
    ensures |ss| == 1 ==> Join(ss, sep) == ss[0]
    ensures |ss| > 1 ==> ss[0] + sep <= Join(ss, sep)
  {
    if |ss| > 1 {
      assert Join(ss, sep) == ss[0] + sep + Join(ss[1..], sep);
      assert (ss[0] + sep + Join(ss[1..], sep))[..|ss[0] + sep|] == ss[0] + sep;
    }
  }

  /** `display_mermaid`: the text opens with the `graph TD` header, and is
      nothing more exactly when the graph has neither nodes nor edges. */
  function DisplayMermaid<N(!new)>(g: Graph<N, string>, nameOf: N -> string, infoOf: N -> seq<string>): (r: string)
    requires g.edges.Valid()
    ensures "graph TD\n" <= r
    ensures r == "graph TD\n" <==> g.GetNodes() == [] && g.edges.keys == []
  {
    var ss := MermaidSegments(g, nameOf, infoOf);
    JoinFirst(ss, "\n");
    Join(ss, "\n")
  }
}

=== FILE: param.dfy ===
/** Parameter declarations, declaration sets with their compatibility
    relation, and the world-state store that keeps values beside their
    declarations (action_engine/param.py). */
module Params {
  import opened Wrappers
  import opened Dict
  import opened PyTypes

  /** A declaration: a plain `Param`, an `InputParam` listing the names its
      change invalidates, or an `OutputParam` saying whether it cascades. */
  datatype Param =
    | Plain(name: string, ty: TypeTag)
    | Input(name: string, ty: TypeTag, deps: seq<string>)
    | Output(name: string, ty: TypeTag, cascade: bool)

  /** The invalidation list of an input declaration; other kinds have none. */
  function DepsOf(p: Param): seq<string> {
    if p.Input? then p.deps else []
  }

  predicate Cascades(p: Param) {
    p.Output? && p.cascade
  }

  /** A `ParamSet`: declarations keyed by their own name, in insertion order. */
  type ParamSet = Dict<string, Param>

  ghost predicate IsParamSet(s: ParamSet) {
    && s.Valid()
    && forall k :: k in s.m ==> s.m[k].name == k
  }

  function Names(ps: seq<Param>): (ns: seq<string>)
    ensures |ns| == |ps| && forall i :: 0 <= i < |ps| ==> ns[i] == ps[i].name
  {
    seq(|ps|, i requires 0 <= i < |ps| => ps[i].name)
  }

  /** `name in S`. */
  predicate Contains(s: ParamSet, name: string): (b: bool)
    ensures IsParamSet(s) ==> (b <==> name in s.keys)
  {
    name in s.m
  }

  /** `name in S` holds exactly for the names listed in iteration order,
      and then `S.get(name)` is the declaration of that name. */
  lemma ContainsIffListed(s: ParamSet, name: string)
    requires IsParamSet(s)
    ensures Contains(s, name) <==> name in s.keys
    ensures Contains(s, name) <==> s.Get(name).Some?
    ensures Contains(s, name) ==> s.Get(name).value.name == name
  {
  }

  /** `S[i]`: positional access in insertion order. */
  function At(s: ParamSet, i: nat): (p: Param)
    requires IsParamSet(s) && i < s.Size()
    ensures Contains(s, p.name) && s.Get(p.name) == Some(p)
    ensures p == s.Values()[i]
  {
    s.m[s.keys[i]]
  }

  /** `S.add(p)`: an upsert keyed by `p.name`. */
  function Add(s: ParamSet, p: Param): (r: ParamSet)
    requires IsParamSet(s)
    ensures IsParamSet(r)
    ensures r.Get(p.name) == Some(p)
    ensures forall n :: n != p.name ==> r.Get(n) == s.Get(n)
    ensures s.Size() <= r.Size() <= s.Size() + 1
  {
    s.Put(p.name, p)
  }

  /** `S.discard(name)`: removes the name if present, otherwise does nothing. */
  function Discard(s: ParamSet, name: string): (r: ParamSet)
    requires IsParamSet(s)
    ensures IsParamSet(r)
    ensures !Contains(r, name)
    ensures forall n :: n != name ==> r.Get(n) == s.Get(n)
    ensures !Contains(s, name) ==> r == s
  {
    s.Remove(name)
  }

  lemma DiscardIdempotent(s: ParamSet, name: string)
    requires IsParamSet(s)
    ensures Discard(Discard(s, name), name) == Discard(s, name)
  {
  }

  /** `ParamSet(params)`: the declarations added one after another, so a
      later declaration replaces an earlier one of the same name. */
  function FromList(ps: seq<Param>): (s: ParamSet)
    ensures IsParamSet(s)
  {
    if ps == [] then Empty() else Add(FromList(ps[..|ps| - 1]), ps[|ps| - 1])
  }

  /** The set built from a list declares exactly the listed names, each
      with one of the listed declarations. */
  lemma {:induction false} FromListContents(ps: seq<Param>)
    ensures forall n :: Contains(FromList(ps), n) <==> n in Names(ps)
    ensures forall n :: Contains(FromList(ps), n) ==> FromList(ps).m[n] in ps
  {
    if ps != [] {
      var init := ps[..|ps| - 1];
      var last := ps[|ps| - 1];
      FromListContents(init);
      assert Names(ps) == Names(init) + [last.name];
      assert forall p :: p in init ==> p in ps;
      var s0 := FromList(init);
      var s := FromList(ps);
      assert s == Add(s0, last);
      forall n
        ensures Contains(s, n) <==> n in Names(ps)
        ensures Contains(s, n) ==> s.m[n] in ps
      {
        if n != last.name {
          assert s.Get(n) == s0.Get(n);
        }
      }
    }
  }

  /** With distinct names, the set keeps the list's order. */
  lemma {:induction false} FromListOrder(ps: seq<Param>)
    requires NoDup(Names(ps))
    ensures FromList(ps).keys == Names(ps)
  {
    if ps != [] {
      var init := ps[..|ps| - 1];
      var last := ps[|ps| - 1];
      assert Names(ps) == Names(init) + [last.name];
      assert NoDup(Names(init));
      FromListOrder(init);
      FromListContents(init);
      assert last.name !in Names(init);
    }
  }

  /** With distinct names, the set built from a list lists them in order,
      each with its own declaration. */
  lemma FromListDeclares(ps: seq<Param>)
    ensures forall n :: Contains(FromList(ps), n) <==> n in Names(ps)
    ensures NoDup(Names(ps)) ==> FromList(ps).keys == Names(ps)
    ensures NoDup(Names(ps)) ==> forall i :: 0 <= i < |ps| ==> FromList(ps).Get(ps[i].name) == Some(ps[i])
  {
    FromListContents(ps);
    if NoDup(Names(ps)) {
      FromListOrder(ps);
      forall i | 0 <= i < |ps|
        ensures FromList(ps).Get(ps[i].name) == Some(ps[i])
      {
        assert forall j :: i < j < |ps| ==> Names(ps)[j] != Names(ps)[i];
        FromListKeepsLast(ps, i);
      }
    }
  }

  /** The declaration kept under a name is the last one listed with it. */
  lemma {:induction false} FromListKeepsLast(ps: seq<Param>, i: nat)
    requires i < |ps|
    requires forall j :: i < j < |ps| ==> ps[j].name != ps[i].name
    ensures FromList(ps).Get(ps[i].name) == Some(ps[i])
  {
    if i < |ps| - 1 {
      var init := ps[..|ps| - 1];
      FromListKeepsLast(init, i);
    }
  }

  /** `self <= other` as the source computes it: first the key-set test,
      then every name of `self`, in order, must be narrowed by `other`. */
  function Le(r: ParamSet, a: ParamSet): (b: bool)
    requires IsParamSet(r)
    ensures b <==> Satisfies(r, a)
  {
    if !(r.m.Keys <= a.m.Keys) then false
    else AllNarrowing(r, a, r.keys)
  }

  function AllNarrowing(r: ParamSet, a: ParamSet, names: seq<string>): (b: bool)
    requires forall n :: n in names ==> n in r.m && n in a.m
    ensures b <==> forall i :: 0 <= i < |names| ==> IsSubclass(a.m[names[i]].ty, r.m[names[i]].ty)
  {
    if names == [] then true
    else
      IsSubclass(a.m[names[0]].ty, r.m[names[0]].ty) && AllNarrowing(r, a, names[1..])
  }

  /** The compatibility relation: every requirement of `r` is available in
      `a`, with a type that is the same as or narrower than the required one. */
  ghost predicate Satisfies(r: ParamSet, a: ParamSet) {
    forall n :: n in r.m ==> n in a.m && IsSubclass(a.m[n].ty, r.m[n].ty)
  }

  /** A requirement missing from the availability set defeats `<=`. */
  lemma MissingNameNotLe(r: ParamSet, a: ParamSet, name: string)
    requires IsParamSet(r)
    requires Contains(r, name) && !Contains(a, name)
    ensures !Le(r, a)
  {
  }

  /** An available type wider than the required one defeats `<=`. */
  lemma WideningNotLe(r: ParamSet, a: ParamSet, name: string)
    requires IsParamSet(r)
    requires Contains(r, name) && Contains(a, name)
    requires !IsSubclass(a.m[name].ty, r.m[name].ty)
    ensures !Le(r, a)
  {
  }

  /** A set whose names strictly include another's is never `<=` it. */
  lemma StrictSupersetNotLe(r: ParamSet, a: ParamSet)
    requires IsParamSet(r)
    requires a.m.Keys < r.m.Keys
    ensures !Le(r, a)
  {
  }

  lemma LeReflexive(s: ParamSet)
    requires IsParamSet(s)
    ensures Le(s, s)
  {
  }

  lemma LeTransitive(r: ParamSet, a: ParamSet, b: ParamSet)
    requires IsParamSet(r) && IsParamSet(a)
    requires Le(r, a) && Le(a, b)
    ensures Le(r, b)
  {
    forall n | n in r.m
      ensures n in b.m && IsSubclass(b.m[n].ty, r.m[n].ty)
    {
      SubclassTransitive(b.m[n].ty, a.m[n].ty, r.m[n].ty);
    }
  }

  /** A `StatefulParamSet`: declarations and the current value of each. */
  datatype Store = Store(decls: ParamSet, state: map<string, PyValue>) {

    /** Declarations and values are kept in lockstep, no `None` is stored,
        and every value is an instance of its declared type. */
    ghost predicate Valid() {
      && IsParamSet(decls)
      && decls.m.Keys == state.Keys
      && forall k :: k in state ==> state[k] != PyNone && IsInstance(state[k], decls.m[k].ty)
    }
  }

  function EmptyStore(): (st: Store)
    ensures st.Valid() && st.decls.Size() == 0
  {
    Store(Empty(), map[])
  }

  /** `get_state(name)`: the stored value, or `None` when there is none. */
  function GetState(st: Store, name: string): (v: PyValue)
    ensures st.Valid() ==> (v == PyNone <==> !Contains(st.decls, name))
  {
    if name in st.state then st.state[name] else PyNone
  }

  /** `discard(name)` on the store: declaration and value go together. */
  function DiscardState(st: Store, name: string): (r: Store)
    requires st.Valid()
    ensures r.Valid()
    ensures !Contains(r.decls, name) && GetState(r, name) == PyNone
    ensures forall n :: n != name ==> r.decls.Get(n) == st.decls.Get(n) && GetState(r, n) == GetState(st, n)
    ensures r.decls.keys == Without(st.decls.keys, {name})
  {
    if Contains(st.decls, name) then Store(Discard(st.decls, name), st.state - {name})
    else
      WithoutAbsent(st.decls.keys, {name});
      st
  }

  lemma DiscardStateIdempotent(st: Store, name: string)
    requires st.Valid()
    ensures DiscardState(DiscardState(st, name), name) == DiscardState(st, name)
  {
  }

  /** Removes every name of `drop` from the store. */
  function DiscardAll(st: Store, drop: set<string>): (r: Store)
    requires st.Valid()
    ensures r.Valid()
    ensures forall n :: n in drop ==> !Contains(r.decls, n) && GetState(r, n) == PyNone
    ensures forall n :: n !in drop ==> r.decls.Get(n) == st.decls.Get(n) && GetState(r, n) == GetState(st, n)
    ensures r.decls.keys == Without(st.decls.keys, drop)
  {
    Store(st.decls.RemoveAll(drop), st.state - drop)
  }

  /** Discarding no names changes nothing. */
  lemma DiscardNothing(st: Store)
    requires st.Valid()
    ensures DiscardAll(st, {}) == st
  {
    RemoveAllNothing(st.decls);
    assert st.state - {} == st.state;
  }

  lemma DiscardIsDiscardAll(st: Store, name: string)
    requires st.Valid()
    ensures DiscardState(st, name) == DiscardAll(st, {name})
  {
    RemoveIsRemoveAll(st.decls, name);
    if !Contains(st.decls, name) {
      assert st.state - {name} == st.state;
    }
  }

  lemma DiscardAllTwice(st: Store, a: set<string>, b: set<string>)
    requires st.Valid()
    ensures DiscardAll(DiscardAll(st, a), b) == DiscardAll(st, a + b)
  {
    RemoveAllTwice(st.decls, a, b);
    assert st.state - a - b == st.state - (a + b);
  }

  /** `set_state(param, value)`: `None` discards the name; any other value
      must be an instance of the declared type and is then stored together
      with the declaration. */
  function SetState(st: Store, p: Param, v: PyValue): (r: Result<Store, Fault>)
    requires st.Valid()
    ensures v == PyNone ==> r == Ok(DiscardState(st, p.name))
    ensures v != PyNone ==> (r.Ok? <==> IsInstance(v, p.ty))
    ensures r.Err? ==> r.error == NotInstance(p.name)
    ensures r.Ok? ==> r.value.Valid()
    ensures r.Ok? && v != PyNone ==>
              GetState(r.value, p.name) == v && r.value.decls.Get(p.name) == Some(p)
    ensures r.Ok? ==> forall n :: n != p.name ==>
              GetState(r.value, n) == GetState(st, n) && r.value.decls.Get(n) == st.decls.Get(n)
  {
    if v == PyNone then Ok(DiscardState(st, p.name))
    else if !IsInstance(v, p.ty) then Err(NotInstance(p.name))
    else Ok(Store(Add(st.decls, p), st.state[p.name := v]))
  }
}

=== FILE: pytypes.dfy ===
/** The slice of Python's runtime the engine relies on: classes ordered by
    subclassing, values that carry their class, and the faults the engine's
    own assertions and checks raise. */
module PyTypes {

  /** A class, named by its single-inheritance lineage from the root class
      down to itself, e.g. `["object", "int", "bool"]` for `bool`. */
  datatype TypeTag = TypeTag(lineage: seq<string>)

  /** `issubclass(sub, sup)`: `sup` lies on `sub`'s lineage. */
  predicate IsSubclass(sub: TypeTag, sup: TypeTag) {
    sup.lineage <= sub.lineage
  }

  lemma SubclassReflexive(t: TypeTag)
    ensures IsSubclass(t, t)
  {
  }

  lemma SubclassTransitive(a: TypeTag, b: TypeTag, c: TypeTag)
    requires IsSubclass(a, b) && IsSubclass(b, c)
    ensures IsSubclass(a, c)
  {
  }

  /** The last name on a class's lineage, what `__name__` shows. */
  function ClassName(t: TypeTag): string {
    if t.lineage == [] then "object" else t.lineage[|t.lineage| - 1]
  }

  const ObjectType := TypeTag(["object"])
  const NoneType := TypeTag(["object", "NoneType"])
  const TupleType := TypeTag(["object", "tuple"])
  const IntType := TypeTag(["object", "int"])
  const FloatType := TypeTag(["object", "float"])
  const StrType := TypeTag(["object", "str"])

  /** A Python value: `None`, a tuple, or any other object, whose class is
      `cls` and whose contents are abstracted to one integer. */
  datatype PyValue =
    | PyNone
    | PyTuple(items: seq<PyValue>)
    | PyObj(cls: TypeTag, data: int)

  /** `type(v)`. */
  function TypeOf(v: PyValue): TypeTag {
    match v
    case PyNone => NoneType
    case PyTuple(_) => TupleType
    case PyObj(c, _) => c
  }

  /** `isinstance(v, t)`. */
  predicate IsInstance(v: PyValue, t: TypeTag) {
    IsSubclass(TypeOf(v), t)
  }

  /** Every value is an instance of its own runtime class. */
  lemma InstanceOfOwnType(v: PyValue)
    ensures IsInstance(v, TypeOf(v))
  {
  }

  /** The errors the engine raises itself. */
  datatype Fault =
      /** `assert isinstance(value, param.type_)` failed when storing `name`. */
    | NotInstance(name: string)
      /** `assert param` failed: keyword `name` is not an input of the entry point. */
    | UnknownKeyword(name: string)
      /** `assert isinstance(metadata, ...)` failed: the annotation of `name`
          carries the wrong kind of metadata. */
    | WrongMetadata(name: string)
      /** `TypeError`: the return annotation has a shape the engine rejects. */
    | BadReturnShape
      /** `AttributeError`: a tuple return annotation was asked for metadata
          it does not have. */
    | MissingMetadata
}

=== FILE: scenarios.dfy ===
/** Worked examples: the situations the repository's own tests set up,
    stated over the model (tests/test_param.py, tests/test_action.py,
    tests/test_engine.py). */
module Scenarios {
  import opened Wrappers
  import opened Dict
  import opened PyTypes
  import opened Params
  import opened Actions
  import opened Engines

  function Int(n: int): PyValue {
    PyObj(IntType, n)
  }

  /** Storing 42 under an `int` declaration makes it readable. */
  lemma SetThenGet()
    ensures var r := SetState(EmptyStore(), Plain("test_param", IntType), Int(42));
            r.Ok? && GetState(r.value, "test_param") == Int(42)
  {
  }

  /** Discarding a stored string makes its name read as `None`. */
  lemma SetThenDiscard()
    ensures var r := SetState(EmptyStore(), Plain("string_param", StrType), PyObj(StrType, 0));
            && r.Ok? && GetState(r.value, "string_param") == PyObj(StrType, 0)
            && GetState(DiscardState(r.value, "string_param"), "string_param") == PyNone
  {
  }

  /** An `int` is not a `float`: storing 10 under a `float` declaration fails. */
  lemma IntIsNotFloat()
    ensures SetState(EmptyStore(), Plain("float_param", FloatType), Int(10)) == Err(NotInstance("float_param"))
  {
    assert FloatType.lineage[1] != IntType.lineage[1];
  }

  /** `{a: int} <= {a: int, b: str}` but not the other way round. */
  lemma SmallerSetIsLe()
    ensures Le(FromList([Plain("a", IntType)]), FromList([Plain("a", IntType), Plain("b", StrType)]))
    ensures !Le(FromList([Plain("a", IntType), Plain("b", StrType)]), FromList([Plain("a", IntType)]))
  {
    var pa, pb := Plain("a", IntType), Plain("b", StrType);
    var small := FromList([pa]);
    var large := FromList([pa, pb]);
    FromListContents([pa]);
    FromListContents([pa, pb]);
    assert Names([pa]) == ["a"];
    assert Names([pa, pb]) == ["a", "b"];
    FromListKeepsLast([pa], 0);
    FromListKeepsLast([pa, pb], 0);
    FromListKeepsLast([pa, pb], 1);
    assert Satisfies(small, large);
    MissingNameNotLe(large, small, "b");
  }

  /** `dummy_action_function(base: int, increment: Annotated[int, Deps([])])
      -> Annotated[int, Tag("result", cascade=False)]`. */
  const DummySignature := Signature(
    [("base", Bare(IntType)), ("increment", Annotated(IntType, DepsMeta([])))],
    Returns(Annotated(IntType, TagMeta("result", false))))

  const DummyAction := Action(0, "dummy_action_function", false, "dummy action",
    Dict(["base", "increment"], map["base" := Input("base", IntType, []), "increment" := Input("increment", IntType, [])]),
    Dict(["result"], map["result" := Output("result", IntType, false)]))

  /** Both parameters become inputs, in order, and the one output is `result`. */
  lemma DummyActionExtraction()
    ensures Build(0, "dummy_action_function", false, "dummy action", DummySignature) == Ok(DummyAction)
  {
    DummyInputs();
    DummyDeclarationSets();
    assert ExtractOutputs(DummySignature.ret) == Ok([Output("result", IntType, false)]);
  }

  lemma DummyDeclarationSets()
    ensures FromList([Input("base", IntType, []), Input("increment", IntType, [])]) == DummyAction.inputs
    ensures FromList([Output("result", IntType, false)]) == DummyAction.outputs
  {
    var ib, ii := Input("base", IntType, []), Input("increment", IntType, []);
    Singleton(ib);
    Singleton(Output("result", IntType, false));
    assert [ib, ii][..1] == [ib];
    assert FromList([ib, ii]) == Add(FromList([ib]), ii);
  }

  /** A one-declaration set. */
  lemma Singleton(p: Param)
    ensures FromList([p]) == Dict([p.name], map[p.name := p])
  {
    assert [p][..0] == [];
    assert FromList([p]) == Add(Empty(), p);
  }

  lemma DummyInputs()
    ensures ExtractInputs(DummySignature.params) == Ok([Input("base", IntType, []), Input("increment", IntType, [])])
  {
    var ins := [Input("base", IntType, []), Input("increment", IntType, [])];
    assert !IsTagged(DummySignature.params[0].1) && !IsTagged(DummySignature.params[1].1);
    assert ExtractInputs(DummySignature.params).Ok?;
    var got := ExtractInputs(DummySignature.params).value;
    assert got[0] == ins[0] && got[1] == ins[1];
    assert got == ins;
  }

  lemma DummyActionWellFormed()
    ensures WellFormed(DummyAction)
  {
    assert NoDup(DummyAction.inputs.keys);
  }

  /** The dummy function's body: the sum of its two arguments. */
  function SumBody(args: map<string, PyValue>): PyValue {
    if "base" in args && "increment" in args && args["base"].PyObj? && args["increment"].PyObj?
    then Int(args["base"].data + args["increment"].data)
    else PyNone
  }

  /** With `base = 10` and `increment = 5` stored as `int`s, the dummy
      action can be invoked and returns one pair, `result` with 15. */
  lemma DummyActionInvocation(st: Store)
    requires st.Valid()
    requires st.decls.Get("base") == Some(Plain("base", IntType)) && GetState(st, "base") == Int(10)
    requires st.decls.Get("increment") == Some(Plain("increment", IntType)) && GetState(st, "increment") == Int(5)
    ensures WellFormed(DummyAction) && CanInvokeWith(DummyAction, st.decls)
    ensures var r := Invoke(DummyAction, st, SumBody);
            |r| == 1 && r[0].0.name == "result" && r[0].1 == Int(15)
  {
    DummyActionWellFormed();
    assert Satisfies(DummyAction.inputs, st.decls);
    var args := Arguments(DummyAction, st);
    assert args["base"] == Int(10) && args["increment"] == Int(5);
    assert DummyAction.outputs.Values() == [Output("result", IntType, false)];
  }

  /** An action consuming one input `name` whose change invalidates `deps`. */
  function Consumer(serial: nat, name: string, deps: seq<string>): Action {
    Action(serial, "consumer", false, "", Dict([name], map[name := Input(name, IntType, deps)]), Empty())
  }

  function TriggerRank(n: string): nat {
    if n == "trigger" then 1 else 0
  }

  /** Cascading from `trigger`, which `dependent` depends on, removes
      `dependent` from any store. */
  lemma CascadeRemovesDependent(st: Store)
    requires st.Valid()
    ensures && RankedBy([Consumer(0, "trigger", ["dependent"])], TriggerRank)
            && GetState(CascadeFrom([Consumer(0, "trigger", ["dependent"])], st, "trigger", TriggerRank), "dependent")
                 == PyNone
  {
    var acts := [Consumer(0, "trigger", ["dependent"])];
    assert RankedBy(acts, TriggerRank);
    assert DepEdge(acts, "trigger", "dependent") by {
      assert "dependent" in DepsOf(acts[0].inputs.m["trigger"]);
    }
    InvalidatedIncludesDeps(acts, "trigger", "dependent", TriggerRank);
    CascadeDiscardsInvalidated(acts, st, "trigger", TriggerRank);
  }

  function ChainRank(n: string): nat {
    if n == "a" then 2 else if n == "b" then 1 else 0
  }

  /** `b` depends on `a` and `c` on `b`. */
  const Chain := [Consumer(0, "a", ["b"]), Consumer(1, "b", ["c"])]

  lemma ChainRanked()
    ensures RankedBy(Chain, ChainRank)
  {
    assert Chain[0].inputs.m.Keys == {"a"} && Chain[1].inputs.m.Keys == {"b"};
  }

  /** In the chain, a cascading output `a` invalidates `b` and, through it,
      `c`, while the new value of `a` stays. */
  lemma CascadeFollowsChain(st: Store)
    requires st.Valid()
    ensures && RankedBy(Chain, ChainRank)
            && var r := Update(Chain, st, Output("a", IntType, true), Int(3), ChainRank);
               && r.Ok?
               && GetState(r.value, "a") == Int(3)
               && GetState(r.value, "b") == PyNone
               && GetState(r.value, "c") == PyNone
  {
    ChainRanked();
    assert DepEdge(Chain, "a", "b") by {
      assert "b" in DepsOf(Chain[0].inputs.m["a"]);
    }
    assert DepEdge(Chain, "b", "c") by {
      assert "c" in DepsOf(Chain[1].inputs.m["b"]);
    }
    InvalidatedIncludesDeps(Chain, "a", "b", ChainRank);
    InvalidatedIncludesDeps(Chain, "b", "c", ChainRank);
    UpdateEffect(Chain, st, Output("a", IntType, true), Int(3), ChainRank);
  }

  // The run of tests/test_engine.py: `increment` bumps a counter held in
  // the base state and outputs it; `finish` needs that counter and is final.

  const DummyState := TypeTag(["object", "BaseModel", "DummyState"])

  const Increment := Action(0, "increment", false, "",
    Dict(["base"], map["base" := Input("base", DummyState, [])]),
    Dict(["counter"], map["counter" := Output("counter", IntType, false)]))

  const Finish := Action(1, "finish", true, "",
    Dict(["base", "counter"], map["base" := Input("base", DummyState, []), "counter" := Input("counter", IntType, [])]),
    Dict([], map[]))

  const Registered := Dict(["increment", "finish"], map["increment" := Increment, "finish" := Finish])

  /** `increment(base: DummyState) -> Annotated[int, Tag("counter", cascade=False)]`. */
  const IncrementSignature := Signature(
    [("base", Bare(DummyState))],
    Returns(Annotated(IntType, TagMeta("counter", false))))

  /** `finish(base: DummyState, counter: Annotated[int, Deps([])]) -> None`. */
  const FinishSignature := Signature(
    [("base", Bare(DummyState)), ("counter", Annotated(IntType, DepsMeta([])))],
    Returns(Bare(NoneType)))

  /** The decorated `increment` builds to `Increment`: one input `base`, one
      non-cascading output `counter`. */
  lemma IncrementExtraction()
    ensures Build(0, "increment", false, "", IncrementSignature) == Ok(Increment)
  {
    var ib := Input("base", DummyState, []);
    assert ExtractInputs(IncrementSignature.params).Ok?;
    assert ExtractInputs(IncrementSignature.params).value[0] == ib;
    assert ExtractInputs(IncrementSignature.params).value == [ib];
    IncrementDeclarationSets();
  }

  /** Decorating `increment` and then `finish` on a fresh engine, as the
      test does, registers exactly `Increment` and `Finish`, in that order. */
  lemma TestRegistration(e0: Engine)
    requires e0 == NewEngine(DummyState)
    ensures var r1 := Register(e0, "increment", false, "", IncrementSignature);
            && r1.Ok?
            && var r2 := Register(r1.value.0, "finish", true, "", FinishSignature);
               && r2.Ok?
               && |r2.value.0.registry.keys| == 2
               && r2.value.0.registry.keys[0] == "increment" && r2.value.0.registry.keys[1] == "finish"
               && r2.value.0.registry.Get("increment") == Some(Increment)
               && r2.value.0.registry.Get("finish") == Some(Finish)
  {
    assert e0.registered == 0 && e0.registry.keys == [];
    IncrementExtraction();
    FinishExtraction();
    RegisterTwo(e0, 1, "increment", false, "", IncrementSignature, Increment, "finish", true, "", FinishSignature, Finish);
  }

  /** Two decorations with different names on an engine with nothing
      registered list both names in order, each with its built action. */
  lemma RegisterTwo(e0: Engine, second: nat, n1: string, f1: bool, d1: string, s1: Signature, a1: Action,
                    n2: string, f2: bool, d2: string, s2: Signature, a2: Action)
    requires e0.Valid() && e0.registry.keys == [] && n1 != n2
    requires Build(e0.registered, n1, f1, d1, s1) == Ok(a1)
    requires second == e0.registered + 1 && Build(second, n2, f2, d2, s2) == Ok(a2)
    ensures var r1 := Register(e0, n1, f1, d1, s1);
            && r1.Ok?
            && var r2 := Register(r1.value.0, n2, f2, d2, s2);
               && r2.Ok?
               && |r2.value.0.registry.keys| == 2
               && r2.value.0.registry.keys[0] == n1 && r2.value.0.registry.keys[1] == n2
               && r2.value.0.registry.Get(n1) == Some(a1)
               && r2.value.0.registry.Get(n2) == Some(a2)
  {
    RegisterFirst(e0, n1, f1, d1, s1, a1);
    RegisterSecond(Register(e0, n1, f1, d1, s1).value.0, second, n1, a1, n2, f2, d2, s2, a2);
  }

  /** The first decoration on an empty registry. */
  lemma RegisterFirst(e0: Engine, n1: string, f1: bool, d1: string, s1: Signature, a1: Action)
    requires e0.Valid() && e0.registry.keys == []
    requires Build(e0.registered, n1, f1, d1, s1) == Ok(a1)
    ensures Register(e0, n1, f1, d1, s1).Ok?
    ensures var e1 := Register(e0, n1, f1, d1, s1).value.0;
            && e1.Valid() && e1.registered == e0.registered + 1
            && e1.registry.keys == [n1] && e1.registry.Get(n1) == Some(a1)
  {
    RegisterNew(e0, e0.registered, n1, f1, d1, s1, a1);
  }

  /** A second decoration under another name. */
  lemma RegisterSecond(e1: Engine, second: nat, n1: string, a1: Action,
                       n2: string, f2: bool, d2: string, s2: Signature, a2: Action)
    requires e1.Valid() && e1.registered == second && n1 != n2
    requires e1.registry.keys == [n1] && e1.registry.Get(n1) == Some(a1)
    requires Build(second, n2, f2, d2, s2) == Ok(a2)
    ensures Register(e1, n2, f2, d2, s2).Ok?
    ensures var e2 := Register(e1, n2, f2, d2, s2).value.0;
            && |e2.registry.keys| == 2
            && e2.registry.keys[0] == n1 && e2.registry.keys[1] == n2
            && e2.registry.Get(n1) == Some(a1)
            && e2.registry.Get(n2) == Some(a2)
  {
    assert n2 !in e1.registry.keys;
    RegisterNew(e1, second, n2, f2, d2, s2, a2);
  }

  /** Registering a name not yet registered appends it and stores the built
      action under it, leaving every other name alone. */
  lemma RegisterNew(e: Engine, serial: nat, name: string, final: bool, description: string, sig: Signature, a: Action)
    requires e.Valid() && name !in e.registry.m
    requires serial == e.registered && Build(serial, name, final, description, sig) == Ok(a)
    ensures Register(e, name, final, description, sig).Ok?
    ensures var e' := Register(e, name, final, description, sig).value.0;
            && e'.registry.keys == e.registry.keys + [name]
            && e'.registry.Get(name) == Some(a)
            && forall n :: n != name ==> e'.registry.Get(n) == e.registry.Get(n)
  {
  }

  lemma IncrementDeclarationSets()
    ensures FromList([Input("base", DummyState, [])]) == Increment.inputs
    ensures FromList([Output("counter", IntType, false)]) == Increment.outputs
  {
    Singleton(Input("base", DummyState, []));
    Singleton(Output("counter", IntType, false));
  }

  /** The decorated `finish` builds to `Finish`: inputs `base` and
      `counter`, in order, and no outputs. */
  lemma FinishExtraction()
    ensures Build(1, "finish", true, "", FinishSignature) == Ok(Finish)
  {
    var ib, ic := Input("base", DummyState, []), Input("counter", IntType, []);
    assert !IsTagged(FinishSignature.params[0].1) && !IsTagged(FinishSignature.params[1].1);
    assert ExtractInputs(FinishSignature.params).Ok?;
    var got := ExtractInputs(FinishSignature.params).value;
    assert got[0] == ib && got[1] == ic;
    assert got == [ib, ic];
    FinishDeclarationSets();
    assert ExtractOutputs(FinishSignature.ret) == Ok([]);
  }

  lemma FinishDeclarationSets()
    ensures FromList([Input("base", DummyState, []), Input("counter", IntType, [])]) == Finish.inputs
    ensures FromList([]) == Finish.outputs
  {
    var ib, ic := Input("base", DummyState, []), Input("counter", IntType, []);
    Singleton(ib);
    assert [ib, ic][..1] == [ib];
    assert FromList([ib, ic]) == Add(FromList([ib]), ic);
  }

  /** The test's selector: `finish` when it is a candidate, else the first candidate. */
  function PreferFinish(base: PyValue, cs: seq<Action>): Action {
    if cs == [] then Increment
    else if Finish in cs then Finish
    else cs[0]
  }

  /** `increment` returns the base state's counter plus one; `finish` returns nothing. */
  function DummyBodies(a: Action): map<string, PyValue> -> PyValue {
    if a.name == "increment" then
      (args: map<string, PyValue>) => if "base" in args && args["base"].PyObj? then Int(args["base"].data + 1) else PyNone
    else
      (args: map<string, PyValue>) => PyNone
  }

  function NoRank(n: string): nat {
    0
  }

  lemma IncrementFinishWellFormed()
    ensures WellFormed(Increment) && WellFormed(Finish)
  {
    assert NoDup(Finish.inputs.keys);
  }

  lemma RegisteredValid()
    ensures RegistryValid(Registered)
  {
    IncrementFinishWellFormed();
    assert Registered.Valid();
  }

  lemma RegisteredValues()
    ensures Registered.Values() == [Increment, Finish]
  {
    assert Registered.Valid();
  }

  lemma RegisteredRanked()
    ensures RankedBy(Registered.Values(), NoRank)
  {
    RegisteredValues();
  }

  /** A store holding the base state with counter `c` and no `counter` output yet. */
  ghost predicate Fresh(st: Store, c: int) {
    && st.Valid()
    && st.decls.Get("base") == Some(Plain("base", DummyState))
    && GetState(st, "base") == PyObj(DummyState, c)
    && !Contains(st.decls, "counter")
  }

  /** Before `increment` has run, only `increment` can be invoked. */
  lemma OnlyIncrementAtStart(st: Store, c: int)
    requires Fresh(st, c)
    ensures RegistryValid(Registered) && Candidates(Registered, st) == [Increment]
  {
    RegisteredValid();
    RegisteredValues();
    IncrementFinishWellFormed();
    assert CanInvokeWith(Increment, st.decls) by {
      assert Satisfies(Increment.inputs, st.decls);
    }
    assert !CanInvokeWith(Finish, st.decls) by {
      MissingNameNotLe(Finish.inputs, st.decls, "counter");
    }
    var acts := [Increment, Finish];
    assert acts[1..] == [Finish] && acts[1..][1..] == [];
    assert FilterInvocable(acts[1..], st.decls) == [];
  }

  /** Running `increment` on a fresh store stores `counter = c + 1` and keeps the base. */
  lemma IncrementStep(st: Store, c: int)
    requires Fresh(st, c)
    ensures RankedBy(Registered.Values(), NoRank)
    ensures var st1 := Advance(Registered.Values(), st, Increment, DummyBodies, NoRank);
            && GetState(st1, "counter") == Int(c + 1)
            && st1.decls.Get("counter") == Some(Plain("counter", IntType))
            && GetState(st1, "base") == PyObj(DummyState, c)
            && st1.decls.Get("base") == Some(Plain("base", DummyState))
  {
    RegisteredRanked();
    var acts := Registered.Values();
    assert Arguments(Increment, st)["base"] == PyObj(DummyState, c);
    assert Increment.outputs.Values() == [Output("counter", IntType, false)];
    var pairs := Invoke(Increment, st, DummyBodies(Increment));
    assert pairs == [(Output("counter", IntType, false), Int(c + 1))];
    UpdateEffect(acts, st, pairs[0].0, pairs[0].1, NoRank);
    var st1 := Update(acts, st, pairs[0].0, pairs[0].1, NoRank).value;
    assert ApplyAll(acts, st1, pairs[1..], NoRank) == Ok(st1);
  }

  /** Once `counter` is stored as an `int`, `finish` is a candidate and the
      test's selector picks it. */
  lemma FinishPickedOnceCounted(st: Store)
    requires st.Valid()
    requires st.decls.Get("base") == Some(Plain("base", DummyState))
    requires st.decls.Get("counter") == Some(Plain("counter", IntType))
    ensures RegistryValid(Registered) && PreferFinish(GetState(st, "base"), Candidates(Registered, st)) == Finish
  {
    RegisteredValid();
    RegisteredValues();
    IncrementFinishWellFormed();
    assert CanInvokeWith(Finish, st.decls) by {
      assert Satisfies(Finish.inputs, st.decls);
    }
  }

  /** With the counter stored, the next turn runs `finish` and the loop stops. */
  lemma FinishTurn(st: Store, fuel: nat)
    requires st.Valid() && fuel >= 1
    requires st.decls.Get("base") == Some(Plain("base", DummyState))
    requires st.decls.Get("counter") == Some(Plain("counter", IntType))
    ensures RegistryValid(Registered) && RankedBy(Registered.Values(), NoRank)
    ensures Loop(Registered, st, PreferFinish, DummyBodies, fuel, NoRank) == Trace(Finished, st, [Turn(st, Finish)])
  {
    RegisteredRanked();
    FinishPickedOnceCounted(st);
    FinishLeavesCounter(st);
  }

  /** The engine run of the test: from a fresh store and with fuel for two
      turns, the loop runs `increment` and then `finish`, stops because
      `finish` is final, and leaves `counter = c + 1` in the store. */
  lemma IncrementThenFinish(st: Store, c: int, fuel: nat)
    requires Fresh(st, c) && fuel >= 2
    ensures RegistryValid(Registered) && RankedBy(Registered.Values(), NoRank)
    ensures var t := Loop(Registered, st, PreferFinish, DummyBodies, fuel, NoRank);
            && t.outcome == Finished
            && |t.turns| == 2
            && t.turns[0].chosen == Increment && t.turns[1].chosen == Finish
            && GetState(t.store, "counter") == Int(c + 1)
  {
    RegisteredValid();
    RegisteredRanked();
    OnlyIncrementAtStart(st, c);
    IncrementStep(st, c);
    var st1 := Advance(Registered.Values(), st, Increment, DummyBodies, NoRank);
    FinishTurn(st1, fuel - 1);
    assert PreferFinish(GetState(st, "base"), [Increment]) == Increment;
  }

  /** `finish` returns `None` and has no outputs, so it changes nothing. */
  lemma FinishLeavesCounter(st: Store)
    requires st.Valid()
    ensures RankedBy(Registered.Values(), NoRank)
    ensures Advance(Registered.Values(), st, Finish, DummyBodies, NoRank) == st
  {
    RegisteredRanked();
    assert Finish.outputs.Values() == [];
  }

  /** `engine.run(state)` on an engine holding the two actions: the run
      succeeds, finishes after `increment` and `finish`, and the engine keeps
      `counter = c + 1`. */
  lemma RunIncrementThenFinish(e: Engine, c: int, fuel: nat)
    requires e.Valid() && e.registry == Registered && e.baseType == DummyState
    requires !Contains(e.store.decls, "counter") && fuel >= 2
    ensures RankedBy(e.registry.Values(), NoRank)
    ensures var r := Run(e, PyObj(DummyState, c), None, [], [], PreferFinish, DummyBodies, fuel, NoRank);
            && r.Ok?
            && r.value.1.outcome == Finished
            && |r.value.1.turns| == 2
            && GetState(r.value.0.store, "counter") == Int(c + 1)
  {
    RegisteredRanked();
    var st0 := SetState(e.store, Plain("base", DummyState), PyObj(DummyState, c)).value;
    assert Fresh(st0, c);
    IncrementThenFinish(st0, c, fuel);
  }
}

=== FILE: wrappers.dfy ===
/** Optional values and fallible results, the two shapes Python code expresses
    with `None` returns and raised exceptions. */
module Wrappers {

  datatype Option<+T> = None | Some(value: T)

  datatype Result<+T, +E> = Ok(value: T) | Err(error: E)
}
